=== FILE: README.md ===
# whitelist: network and dual IP whitelists, in Dafny

This project models the network and dual access-control lists of the Go
package `whitelist`.

- **`BasicNet`** is an ordered list of IPv4 networks.
  - `Permitted` scans the list for a network that contains the address.
  - `Add` appends without de-duplication.
  - `Remove` drops the first entry whose text form (`192.168.3.0/24`) equals the argument's.
  - The list is written and read as JSON in one of two shapes:
    - a quoted, comma-separated string (the compatibility format);
    - an array of strings (the new format).
- **`NetStub`** permits everything.
- **`BasicDual`** combines a host whitelist with a network whitelist under one of two launch policies:
  - sequenced: the host check, then the network check if the host check refused;
  - asynchronous: both checks run concurrently and their answers are or-ed.

Every operation is a pure function from one whitelist state to the next. The supporting modules:

- `Strings`: Go's `strings.TrimSpace`, `Split`, `Join` and `Cut`.
- `Decimal`: decimal numerals.
- `IPv4`: CIDR networks as in section 3.1 of RFC 4632. A network is a base with its host bits clear and a prefix length of at most 32. The module also covers containment, `IPNet.String` and a `net.ParseCIDR` for dotted quads.
- `JsonArray`: the arrays of strings the new format uses, read as in sections 2, 5 and 7 of RFC 8259.
- `WhitelistHost`: the host whitelist.

Behaviour that the model keeps from the code:

- Inputs that make the Go code panic are excluded by preconditions:
  - `UnmarshalJSON` on an empty input or on a lone `"` (`Readable`);
  - `Permitted` reaching a nil entry before a match (`CanCheck`, `ScanSafe`);
  - the dual `Permitted` running such a network check (`CanRun`).
- Entries are `Option<Network>`, because the decoder can store nil entries (see Findings).
- Errors are values of `WhitelistError`. A decode returns the whitelist afterwards together with the error (`Decoded`).

How the decoder and the dual check behave, as the code is written:

- Shape detection looks at the very first and last bytes of the input, without skipping white space (whitelist_net.go:134-140).
- The compatibility shape is recognised by its quotes alone. The bytes between them are trimmed and split at commas; they are not parsed as a JSON string, so escapes are not decoded (whitelist_net.go:144-146).
- Both shapes trim every token and skip blank ones (whitelist_net.go:158-163). Blank tokens are dropped cleanly only when all of them come after the last network (see Findings).
- In the asynchronous policy, `<-res || <-res` stops reading after a first `true` (whitelist_dual.go:50-57). Both checks still run, but `Permitted` does not wait for the second answer. The result is the or of the two answers in either arrival order.

## Model

| member | source | states |
|---|---|---|
| `WhitelistNet.Permitted` | whitelist_net.go:40-54 | An invalid address is never permitted. A valid one is permitted exactly when some entry of the list contains it. |
| `WhitelistNet.Scan` | whitelist_net.go:48-53 | The scan loop answers true exactly when some non-nil entry contains the address. |
| `WhitelistNet.NoNilScanSafe` | whitelist_net.go:48-53 | On a list without nil entries the scan never dereferences nil. |
| `WhitelistNet.Add` | whitelist_net.go:60-68 | Adding nil changes nothing. Otherwise the network is appended: the length grows by one, earlier entries are unchanged and the format is kept. |
| `WhitelistNet.ScanSafeAppend` | whitelist_net.go:67 | Appending a network never makes the scan reach a nil entry. |
| `WhitelistNet.PermittedAfterAdd` | whitelist_net.go:60-68 | After adding a network, an address is permitted exactly when it was before or the new network contains it. |
| `WhitelistNet.FirstMatch` | whitelist_net.go:79-84 | Finds the first position whose text form equals the argument's, or reports that there is none. |
| `WhitelistNet.RemoveTextSpec` | whitelist_net.go:79-90 | The search-and-splice keeps the list when no entry has the given text form, and otherwise drops exactly the first entry that has it. |
| `WhitelistNet.SlotStringNil` | whitelist_net.go:80 | A nil entry is written `<nil>`, and no network has that text form. |
| `WhitelistNet.SlotMatches` | whitelist_net.go:80 | Comparing text forms is comparing networks: a nil entry never matches and distinct networks never match. |
| `WhitelistNet.Remove` | whitelist_net.go:71-91 | Removing nil, or a network whose text matches no entry, changes nothing. Otherwise exactly the first matching entry is dropped and the rest keep their order. |
| `WhitelistNet.RemoveAbsent` | whitelist_net.go:86-88 | Removing a network that is not listed leaves the whitelist as it was. |
| `WhitelistNet.RemoveFirstOccurrence` | whitelist_net.go:79-90 | Removing a listed network drops its first occurrence and nothing else. |
| `WhitelistNet.RemoveUndoesAdd` | whitelist_net.go:60-91 | Removing a network just added, which was not listed before, restores the original whitelist. |
| `WhitelistNet.AddTwiceRemoveOnce` | whitelist_net.go:56-91 | Duplicates are kept: after adding a network twice and removing it once, one copy remains. |
| `WhitelistNet.RemoveKeepsOnlyListed` | whitelist_net.go:90 | Every entry after a removal was an entry before it. |
| `WhitelistNet.RemoveNeverGrants` | whitelist_net.go:71-91 | On a list without nil entries, removal keeps the list nil-free and never permits an address that was refused before. |
| `WhitelistNet.NewBasicNet2` | whitelist_net.go:99-103 | Gives an empty list with the given output format. |
| `WhitelistNet.NewBasicNet` | whitelist_net.go:94-96 | Gives an empty list in the compatibility format. |
| `WhitelistNet.NewNetStub` | whitelist_net.go:199-202 | Constructs the stub. |
| `WhitelistNet.NetPermitted` | whitelist_net.go:183-186 | The stub permits every input, valid or not. A basic list answers as `Permitted`. |
| `WhitelistNet.NetAdd` | whitelist_net.go:189-191 | The stub ignores additions. A basic list appends. |
| `WhitelistNet.NetRemove` | whitelist_net.go:194-196 | The stub ignores removals. A basic list removes. |
| `WhitelistNet.MarshalJSON` | whitelist_net.go:107-128 | Fails exactly for an unknown format, with the unsupported-format error. Compatibility output is quoted and new output is bracketed. |
| `WhitelistNet.EmptyEncodings` | whitelist_net.go:114-125 | An empty list encodes as `""` in the compatibility format and as `[]` in the new one, and format 2 is an error (as is every other value, by `MarshalJSON`). |
| `WhitelistNet.NetworkStringsPlain` | whitelist_net.go:108-113 | The text forms written contain no comma, quote, backslash, control character or white space. |
| `WhitelistNet.Tokens` | whitelist_net.go:133-152 | Neither shape gives the invalid-whitelist error. The compatibility shape splits the trimmed inside at commas. The new shape succeeds exactly when the input reads as a JSON array of strings, and then gives exactly those strings; otherwise it gives the JSON error. |
| `WhitelistNet.CompatTokens` | whitelist_net.go:144-146 | A quoted document with a trimmed inside yields that inside split at commas. |
| `WhitelistNet.CountBlank` | whitelist_net.go:157-163 | Counts skipped tokens; never more than the token count. |
| `WhitelistNet.FirstBad` | whitelist_net.go:158-168 | Finds the first non-blank token that is not a network, or reports that every token is blank or a network. |
| `WhitelistNet.ParseTokens` | whitelist_net.go:156-169 | Succeeds exactly when no token is bad. Then it gives one entry per token, nil for a blank one, agreeing with the slot-by-slot reference `TokenSlots`. Otherwise the error names the first bad token. |
| `WhitelistNet.Fill` | whitelist_net.go:154-171 | A bad token empties the list and names that token. Otherwise the length is the token count minus the blank tokens. The format is kept. |
| `WhitelistNet.UnmarshalJSON` | whitelist_net.go:132-172 | A wrong outer shape or malformed JSON returns an error before the list is touched. An invalid network leaves the list empty. The format is kept. |
| `WhitelistNet.NewShapeDecode` | whitelist_net.go:147-171 | A `[`…`]` document that reads as an array of strings decodes without error exactly when none of its strings is a bad token. The list then has as many entries as there are non-blank strings. Otherwise the list is emptied and the error names a network. |
| `WhitelistNet.CountBlankTrailing` | whitelist_net.go:157-170 | When blank tokens come last, the count of skipped tokens is exactly the number of trailing blank tokens. |
| `WhitelistNet.FillTrailingBlanks` | whitelist_net.go:156-170 | When blank tokens come last, the decoded list holds exactly the parsed networks, in order. |
| `WhitelistNet.FillNetworkStrings` | whitelist_net.go:154-171 | Decoding the text forms of a nil-free list gives that list back. |
| `WhitelistNet.CompatRoundTrip` | whitelist_net.go:115-146 | Compatibility round trip: decoding restores any list without nil entries, including the empty list `""`. |
| `WhitelistNet.NewRoundTrip` | whitelist_net.go:117-152 | New-format round trip: decoding restores any list without nil entries, including the empty list `[]`. |
| `WhitelistNet.NilEntryDoesNotRoundTrip` | whitelist_net.go:107-170 | In either format, any list holding a nil entry fails to round-trip. The nil entry is written `<nil>`, which is the first token the decoder rejects, so the decode empties the list and names `<nil>`. |
| `WhitelistNet.NilOnlyListExample` | whitelist_net.go:110-168 | The one-entry list `[nil]` is written `"<nil>"` in the compatibility format, and decoding that fails with an invalid-network error and empties the list. |
| `WhitelistNet.EncodingTokens` | whitelist_net.go:107-152 | In both formats, the tokens the decoder reads from the encoding of a non-empty list are the entries' text forms, `<nil>` included. |
| `WhitelistNet.CompatSingleBad` | whitelist_net.go:144-168 | A quoted document holding one trimmed token that is not a network empties the list and names that token. |
| `WhitelistNet.MarshalRoundTrip` | whitelist_net.go:107-172 | Decoding what the encoder wrote restores any list without nil entries, in either format, and the decoding whitelist keeps its own format. |
| `WhitelistNet.IndentedRoundTrip` | whitelist_net_test.go:147-191 | The new format decodes the same with any JSON white space between tokens, as an indenting encoder writes it. |
| `WhitelistNet.MarshalTestsExample` | whitelist_net_test.go:9-191 | In both formats, `192.168.3.0/24` and `192.168.7.0/24` come back as two entries that permit `192.168.3.1` and `192.168.7.255`. An empty list comes back empty and refuses `192.168.3.1`. |
| `WhitelistNet.AddRemoveTestsExample` | whitelist_net_test.go:226-245 | Adding nil and `192.168.3.0/24`, then removing nil, the unlisted `192.168.1.1/32` and `192.168.3.0/24`, gives the empty list. A two-byte address is refused. |
| `WhitelistNet.RejectsUnquoted` | whitelist_net_test.go:193-198 | An unquoted comma list is refused with the invalid-whitelist error, and the list is left as it was. |
| `WhitelistNet.CompatFirstTokenBad` | whitelist_net.go:158-168 | A compatibility document whose first token is not a network empties the list and names that token. |
| `WhitelistNet.RejectsBadNetwork` | whitelist_net_test.go:200-203 | `"192.168.3.1,127.0.0.256"` is refused: the list is emptied and the error names `192.168.3.1`. |
| `WhitelistNet.EmptyTokenBlank` | whitelist_net.go:159-162 | The empty token is skipped, not rejected. |
| `WhitelistNet.NetworkToken` | whitelist_net.go:159-164 | The text form of a network is a token that parses back to that network. |
| `WhitelistNet.InteriorBlankTokens` | whitelist_net.go:144-146 | `",n"` splits into a blank token and the text of `n`. |
| `WhitelistNet.FillBlankThenNetwork` | whitelist_net.go:156-170 | As written, a blank token followed by a network decodes to a single nil entry. |
| `WhitelistNet.InteriorBlankLosesNetwork` | whitelist_net.go:156-170 | As written, `",n"` decodes without error to one nil entry, on which no valid address can be checked. |
| `WhitelistNet.ParseCompacted` | whitelist_net.go:156-169 | The corrected loop succeeds and fails exactly as the loop as written does, with the same error. |
| `WhitelistNet.CompactedIsPresent` | whitelist_net.go:156-170 | The corrected loop keeps exactly the networks the loop as written parsed, in order. |
| `WhitelistNet.FillCompacted` | whitelist_net.go:154-171 | The corrected fill gives the same errors. On success the list has no nil entry and holds every parsed network in order. |
| `WhitelistNet.UnmarshalJSONCompacted` | whitelist_net.go:132-172 | The corrected decoder reports the same errors and never stores a nil entry. |
| `WhitelistNet.SameNetworks` | whitelist_net.go:154-171 | Two nil-free lists with the same networks in the same order are equal. |
| `WhitelistNet.TrailingSlots` | whitelist_net.go:156-170 | With blank tokens last, the list as written is the prefix of the entries, and only nil entries are cut. |
| `WhitelistNet.CompactedAgrees` | whitelist_net.go:156-170 | Where blank tokens come last, the corrected fill and the fill as written agree. |
| `WhitelistNet.CompactedBlankThenNetwork` | whitelist_net.go:156-170 | The corrected loop turns a blank token followed by a network into that one network. |
| `WhitelistNet.CompactedKeepsNetwork` | whitelist_net.go:156-170 | The corrected decoder reads `",n"` as the one-entry list `[n]`. |
| `IPv4.Contains` | whitelist_net.go:49 | A network contains an address exactly when masking the address to the network's prefix length gives the network. |
| `IPv4.String` | whitelist_net.go:80 | The text form of a network is non-empty and made only of digits, dots and the slash. The round trip through `ParseCIDR` is `IPv4.ParseString`. |
| `IPv4.ParseCIDR` | whitelist_net.go:164 | An accepted text has a slash. The network's prefix length is the number after the slash, and the network contains the address written before it. |
| `IPv4.ContainsRange` | whitelist_net.go:49 | A network contains exactly the addresses from its base up to, but not including, its base plus its host count. |
| `IPv4.ParseString` | whitelist_net.go:164 | Parsing a network's text form gives the network back. |
| `IPv4.StringInjective` | whitelist_net.go:80 | Two networks have the same text form exactly when they are equal. |
| `IPv4.StringIsPlain` | whitelist_net.go:116 | A network's text form is trimmed and free of commas, quotes, backslashes and white space. |
| `IPv4.ParseRejectsBareAddress` | whitelist_net_test.go:200 | `192.168.3.1` (no prefix length) and `127.0.0.256` are not networks. |
| `IPv4.ContainsExamples` | whitelist_net_test.go:46 | `192.168.3.0/24` contains `192.168.3.1` but not `192.168.4.1`, and `192.168.7.0/24` contains `192.168.7.255`. |
| `Strings.SplitJoin` | whitelist_net.go:146 | Splitting the comma-join of comma-free pieces gives the pieces back. |
| `Strings.TrimSpaceEmpty` | whitelist_net.go:159-160 | A token trims to nothing exactly when it is all white space. |
| `JsonArray.ReadRendered` | whitelist_net.go:148 | Reading an array document with any white space between tokens yields its strings. |
| `JsonArray.CompactIsRender` | whitelist_net.go:119 | The compact array written by the encoder is the layout without white space. |
| `WhitelistDual.Permitted` | whitelist_dual.go:46-59 | The answer is the or of the host check and the network check. Sequenced: the host check runs first, and the network check runs exactly when the host check refused. Otherwise both checks run. |
| `WhitelistDual.ReceiveOrderFree` | whitelist_dual.go:57 | The or-ed answer of `<-res \|\| <-res` does not depend on which answer arrives first. Once a first `true` is in, the second answer does not matter. |
| `WhitelistDual.PolicyParity` | whitelist_dual.go:46-59 | Both policies, and every arrival order, give the same answer. |
| `WhitelistDual.AddAddress` | whitelist_dual.go:62-64 | Only the host side changes; it becomes the host whitelist with the address added. |
| `WhitelistDual.AddNetwork` | whitelist_dual.go:70-72 | Only the network side changes; it becomes the network whitelist with the network added. |
| `WhitelistDual.RemoveAddress` | whitelist_dual.go:75-77 | Only the host side changes. |
| `WhitelistDual.RemoveNetwork` | whitelist_dual.go:80-82 | Only the network side changes. |
| `WhitelistDual.AddNetworkPermits` | whitelist_dual.go:70-72 | After adding a network, an address is permitted exactly when it was before or the network contains it. |
| `WhitelistDual.AddAddressPermits` | whitelist_dual.go:62-64 | After adding an address, that address is permitted and every other address gets the same answer as before. |
| `WhitelistDual.RemoveAddressLeavesNetworks` | whitelist_dual.go:75-77 | After removing an address, it is permitted only through the network side. |
| `WhitelistDual.RemoveNetworkNeverGrants` | whitelist_dual.go:80-82 | Removing a network never permits an address that was refused before. |
| `WhitelistDual.NewBasicDual` | whitelist_dual.go:85-91 | Stores the policy, an empty host whitelist and an empty network whitelist in the compatibility format. |
| `WhitelistDual.NewBasicDualDeniesAll` | whitelist_dual.go:85-91 | A fresh dual whitelist permits nothing, under any policy. |
| `WhitelistDual.NewStubDual` | whitelist_dual.go:98-104 | Both sides are stubs and the policy is sequenced. |
| `WhitelistDual.StubDualPermitsAll` | whitelist_dual.go:98-104 | The stubbed dual whitelist permits every input, whatever the host stub answers. |

## Left out

- Locking (`sync.RWMutex`) and the goroutines and channel of the asynchronous policy are not modelled. Operations are pure functions, and the order in which the two answers arrive is a parameter.
- `NetStub` and the other stubs print log warnings; the model leaves these out, because they are output only.
- `whitelist.go` is not part of this model. `WhitelistHost` stands in for it:
  - The host ACL (`HostACL`, `NewBasic`, `NewHostStub`) is a set of addresses.
  - The host stub's answer is a parameter.
  - `validIP` is taken to accept exactly four-byte addresses.
  - `JsonFormatCompatibility` and `JsonFormatNew` are taken to be 0 and 1.
- IPv6, 16-byte forms of IPv4 addresses, and the rest of Go's `net.ParseCIDR` grammar are not modelled. Only IPv4 dotted-quad CIDR is.
- Bytes are characters. `strings.TrimSpace` trims ASCII white space only, not the other Unicode spaces.
- General `encoding/json` is not modelled:
  - escape sequences;
  - a `null` document or element;
  - non-string elements;
  - the text of error messages (errors are the constructors of `WhitelistError`);
  - the struct tags on `BasicDual`.
- JsonArray.ReadStringArray: its behaviour is stated only for array documents laid out by `Render`. Which other inputs it rejects has no contract of its own.
- WhitelistNet.Fill: the contents of the decoded list are stated only when blank tokens come last (`FillTrailingBlanks`), because otherwise the code stores nil entries (see Findings). The length is stated for every input.
- WhitelistNet.MarshalRoundTrip: the round trip is stated only for lists without nil entries. A list holding the nil entry the decoder can produce (see Findings) is written with the text `<nil>`, which does not decode (`NilEntryDoesNotRoundTrip`). The same holds for `CompatRoundTrip` and `NewRoundTrip`.
- WhitelistNet.UnmarshalJSON: requires a readable input. An empty input, and an input that is a lone `"`, panic in the code by indexing out of range, and are excluded.
- WhitelistNet.Permitted: requires that the scan never reaches a nil entry before a match, because `Contains` on a nil network panics in the code.
- WhitelistDual.Permitted: requires that the network check is safe whenever it runs (`CanRun`), for the same reason.

## Findings

| source | as written | input that shows it | evidently intended | confidence | as-written member | corrected member |
|---|---|---|---|---|---|---|
| whitelist_net.go:156-170 | Each token's network is stored at the token's own index, and the list is then cut by the number of blank tokens from the end. | `",192.168.3.0/24"` decodes without error to one nil entry. The network is lost, and `Permitted` would dereference nil for every valid address. | Blank tokens are dropped wherever they occur, so the list holds every parsed network and no nil entry. | not executed | `WhitelistNet.InteriorBlankLosesNetwork` | `WhitelistNet.CompactedKeepsNetwork` |

=== FILE: decimal.dfy ===
/** Decimal digit strings: the rendering Go uses for octets and prefix
    lengths, and the digit reading its address parser performs. */
module Decimal {

  predicate IsDigit(c: char) {
    '0' <= c <= '9'
  }

  predicate AllDigits(s: string) {
    forall i :: 0 <= i < |s| ==> IsDigit(s[i])
  }

  /** A non-empty digit string without a superfluous leading zero. */
  predicate Canonical(s: string) {
    |s| >= 1 && AllDigits(s) && (s[0] == '0' ==> |s| == 1)
  }

  function DigitValue(c: char): (d: nat)
    requires IsDigit(c)
    ensures d < 10
  {
    (c as int) - ('0' as int)
  }

  function DigitChar(d: nat): (c: char)
    requires d < 10
    ensures IsDigit(c) && DigitValue(c) == d
  {
    (('0' as int) + d) as char
  }

  /** The number a digit string denotes (leading zeros allowed). */
  function Value(s: string): nat
    requires AllDigits(s)
    decreases |s|
  {
    if |s| == 0 then 0 else Value(s[..|s| - 1]) * 10 + DigitValue(s[|s| - 1])
  }

  /** The shortest decimal rendering of `n`, as Go's `itoa` writes it. */
  function ToDecimal(n: nat): (s: string)
    ensures Canonical(s)
    decreases n
  {
    if n < 10 then [DigitChar(n)]
    else
      var s := ToDecimal(n / 10) + [DigitChar(n % 10)];
      assert s[0] == ToDecimal(n / 10)[0];
      s
  }

  /** Reading back a rendered number yields the number. */
  lemma {:induction false} ValueOfToDecimal(n: nat)
    ensures Value(ToDecimal(n)) == n
    decreases n
  {
    if n >= 10 {
      ValueOfToDecimal(n / 10);
      var s := ToDecimal(n);
      assert s[..|s| - 1] == ToDecimal(n / 10);
    }
  }
}

=== FILE: ipv4.dfy ===
/** IPv4 addresses and CIDR networks (prefix notation, section 3.1 of
    RFC 4632): containment, the canonical text form Go's `IPNet.String`
    writes and the subset of `net.ParseCIDR` that reads it back. */
module IPv4 {
  import opened Wrappers
  import opened Strings
  import opened Decimal

  type byte = x: int | 0 <= x < 256

  /** An address as Go's `net.IP` holds it: a byte slice of any length. */
  type IP = seq<byte>

  const AddressSpace: nat := 0x1_0000_0000

  /** The validity check applied before any matching: a four-byte address. */
  predicate ValidIP(ip: IP) {
    |ip| == 4
  }

  function Pow2(k: nat): (r: nat)
    ensures r >= 1
  {
    if k == 0 then 1 else 2 * Pow2(k - 1)
  }

  /** Number of addresses a network with this prefix length spans. */
  function HostSize(prefix: nat): (r: nat)
    requires prefix <= 32
    ensures r >= 1
  {
    Pow2(32 - prefix)
  }

  /** The big-endian 32-bit number of a four-byte address. */
  function ToU32(ip: IP): (a: nat)
    requires ValidIP(ip)
    ensures a < AddressSpace
  {
    ((ip[0] as int * 256 + ip[1]) * 256 + ip[2]) * 256 + ip[3]
  }

  /** The four bytes of a 32-bit number, most significant first. */
  function Octets(a: nat): (o: IP)
    requires a < AddressSpace
    ensures ValidIP(o) && ToU32(o) == a
  {
    var b := a / 256;
    var c := b / 256;
    [c / 256, c % 256, b % 256, a % 256]
  }

  /** An IPv4 network: a base address with its host bits cleared and a
      prefix length of at most 32. */
  datatype Cidr = Cidr(base: nat, prefix: nat) {
    predicate Valid() {
      base < AddressSpace && prefix <= 32 && base % HostSize(prefix) == 0
    }
  }

  type Network = c: Cidr | c.Valid() witness Cidr(0, 0)

  /** `IPNet.Contains`: the top `prefix` bits of the address equal those of
      the base, that is, masking the address gives the network. */
  predicate Contains(n: Network, ip: IP)
    requires ValidIP(ip)
    ensures Contains(n, ip) <==> Mask(ToU32(ip), n.prefix) == n
  {
    MaskedEquals(n, ToU32(ip));
    ToU32(ip) / HostSize(n.prefix) == n.base / HostSize(n.prefix)
  }

  lemma MulAtLeast(m: nat, d: int)
    requires d >= 1
    ensures m * d >= m
  {
    var e: nat := d - 1;
    assert m * d == m * e + m;
  }

  lemma MulSplit(m: nat, q: int, k: int)
    ensures m * q == m * k + m * (q - k)
  {
  }

  /** Quotient and remainder are the only decomposition `a == m * q + r`. */
  lemma DivModUnique(a: nat, m: nat, q: nat, r: nat)
    requires m >= 1 && r < m && a == m * q + r
    ensures a / m == q && a % m == r
  {
    var q', r' := a / m, a % m;
    assert a == m * q' + r';
    if q' > q {
      MulSplit(m, q', q);
      MulAtLeast(m, q' - q);
    } else if q > q' {
      MulSplit(m, q, q');
      MulAtLeast(m, q - q');
    }
  }

  /** `a` with its remainder modulo `m` removed is the multiple of `m` at
      or just below `a`. */
  lemma AlignDown(a: nat, m: nat)
    requires m >= 1
    ensures a % m <= a && (a - a % m) % m == 0 && a - a % m <= a < a - a % m + m
  {
    var q := a / m;
    assert a == m * q + a % m;
    MulNonNeg(m, q);
    DivModUnique(m * q, m, q, 0);
  }

  lemma MulNonNeg(x: nat, y: nat)
    ensures x * y >= 0
  {
  }

  lemma DivisionBracket(a: nat, m: nat, k: nat)
    requires m >= 1
    ensures a / m == k <==> m * k <= a < m * k + m
  {
    if m * k <= a < m * k + m {
      DivModUnique(a, m, k, a - m * k);
    } else {
      assert a == m * (a / m) + a % m;
    }
  }

  /** Two addresses agree above the host bits exactly when masking one
      gives the network of the other. */
  lemma MaskedEquals(n: Network, a: nat)
    requires a < AddressSpace
    ensures a / HostSize(n.prefix) == n.base / HostSize(n.prefix) <==> Mask(a, n.prefix) == n
  {
    var m := HostSize(n.prefix);
    var k := n.base / m;
    assert n.base == m * k;
    DivisionBracket(a, m, k);
    AlignDown(a, m);
    if Mask(a, n.prefix) == n {
      assert a - a % m == n.base;
    } else if a / m == k {
      DivModUnique(a, m, k, a - m * k);
    }
  }

  /** Containment is the address range `[base, base + HostSize(prefix))`. */
  lemma ContainsRange(n: Network, ip: IP)
    requires ValidIP(ip)
    ensures Contains(n, ip) <==> n.base <= ToU32(ip) < n.base + HostSize(n.prefix)
  {
    var m := HostSize(n.prefix);
    var k := n.base / m;
    assert n.base == m * k;
    DivisionBracket(ToU32(ip), m, k);
  }

  /** The dotted-quad form of four bytes, as `IP.String` writes IPv4. */
  function DottedQuad(o: IP): (s: string)
    requires ValidIP(o)
    ensures forall i :: 0 <= i < |s| ==> IsDigit(s[i]) || s[i] == '.'
  {
    ToDecimal(o[0]) + "." + ToDecimal(o[1]) + "." + ToDecimal(o[2]) + "." + ToDecimal(o[3])
  }

  /** `IPNet.String`: the dotted quad of the base, `/`, the prefix length.
      It is never empty and holds only digits, dots and one slash. */
  function String(n: Network): (s: string)
    ensures |s| > 0
    ensures forall i :: 0 <= i < |s| ==> IsDigit(s[i]) || s[i] == '.' || s[i] == '/'
  {
    DottedQuad(Octets(n.base)) + "/" + ToDecimal(n.prefix)
  }

  /** One dotted-decimal field: no superfluous leading zero, at most 255. */
  predicate IsOctet(f: string) {
    Canonical(f) && Value(f) <= 255
  }

  /** The IPv4 branch of Go's address parser: exactly four dot-separated
      octets. */
  function ParseIPv4(s: string): (r: Option<nat>)
    ensures r.Some? ==> r.value < AddressSpace
  {
    var f := Split(s, '.');
    if |f| == 4 && IsOctet(f[0]) && IsOctet(f[1]) && IsOctet(f[2]) && IsOctet(f[3]) then
      Some(ToU32([Value(f[0]), Value(f[1]), Value(f[2]), Value(f[3])]))
    else
      None
  }

  /** The prefix length after the slash: decimal digits (leading zeros
      accepted) denoting at most 32. */
  function ParseMask(m: string): (r: Option<nat>)
    ensures r.Some? ==> r.value <= 32
  {
    if |m| >= 1 && AllDigits(m) && Value(m) <= 32 then Some(Value(m)) else None
  }

  /** The network of `a` under a prefix: `a` with its host bits cleared. */
  function Mask(a: nat, prefix: nat): (n: Network)
    requires a < AddressSpace && prefix <= 32
    ensures n.prefix == prefix && n.base <= a < n.base + HostSize(prefix)
  {
    var m := HostSize(prefix);
    AlignDown(a, m);
    Cidr(a - a % m, prefix)
  }

  /** `net.ParseCIDR` restricted to `a.b.c.d/p`; only the network part of
      its result is kept. An accepted text has a slash; the network has the
      prefix length written after it and contains the address written
      before it. */
  function ParseCIDR(s: string): (r: Option<Network>)
    ensures r.Some? ==> Cut(s, '/').Some?
    ensures r.Some? ==> ParseMask(Cut(s, '/').value.1) == Some(r.value.prefix)
    ensures r.Some? ==> (var a := ParseIPv4(Cut(s, '/').value.0);
                         a.Some? && Contains(r.value, Octets(a.value)))
  {
    match Cut(s, '/')
    case None => None
    case Some((addr, mask)) =>
      match (ParseIPv4(addr), ParseMask(mask))
      case (Some(a), Some(p)) =>
        assert Contains(Mask(a, p), Octets(a));
        Some(Mask(a, p))
      case _ => None
  }

  lemma SplitDottedQuad(o: IP)
    requires ValidIP(o)
    ensures Split(DottedQuad(o), '.') == [ToDecimal(o[0]), ToDecimal(o[1]), ToDecimal(o[2]), ToDecimal(o[3])]
  {
    var d0, d1, d2, d3 := ToDecimal(o[0]), ToDecimal(o[1]), ToDecimal(o[2]), ToDecimal(o[3]);
    assert DottedQuad(o) == d0 + ['.'] + (d1 + ['.'] + (d2 + ['.'] + d3));
    SplitNoSeparator(d3, '.');
    SplitAtSeparator(d2, '.', d3);
    SplitAtSeparator(d1, '.', d2 + ['.'] + d3);
    SplitAtSeparator(d0, '.', d1 + ['.'] + (d2 + ['.'] + d3));
  }

  lemma ParseDottedQuad(o: IP)
    requires ValidIP(o)
    ensures ParseIPv4(DottedQuad(o)) == Some(ToU32(o))
  {
    SplitDottedQuad(o);
    ValueOfToDecimal(o[0]);
    ValueOfToDecimal(o[1]);
    ValueOfToDecimal(o[2]);
    ValueOfToDecimal(o[3]);
    assert [Value(ToDecimal(o[0])), Value(ToDecimal(o[1])), Value(ToDecimal(o[2])), Value(ToDecimal(o[3]))] == o;
  }

  /** Masking a network's own base changes nothing. */
  lemma MaskOfNetwork(n: Network)
    ensures Mask(n.base, n.prefix) == n
  {
  }

  /** A rendered prefix length reads back as itself. */
  lemma ParseMaskOfDecimal(p: nat)
    requires p <= 32
    ensures ParseMask(ToDecimal(p)) == Some(p)
  {
    ValueOfToDecimal(p);
  }

  /** Parsing the text form of a network gives the network back. */
  lemma ParseString(n: Network)
    ensures ParseCIDR(String(n)) == Some(n)
  {
    var q := DottedQuad(Octets(n.base));
    var d := ToDecimal(n.prefix);
    assert String(n) == q + ['/'] + d;
    CutAt(q, '/', d);
    ParseDottedQuad(Octets(n.base));
    ParseMaskOfDecimal(n.prefix);
    MaskOfNetwork(n);
  }

  /** Two networks with the same text form are the same network, so the
      textual identity the whitelist uses coincides with equality. */
  lemma StringInjective(a: Network, b: Network)
    ensures String(a) == String(b) <==> a == b
  {
    if String(a) == String(b) {
      ParseString(a);
      ParseString(b);
    }
  }

  /** The text form never holds a comma, a double quote, a backslash or
      white space, so it survives both JSON encodings unchanged. */
  lemma StringIsPlain(n: Network)
    ensures ',' !in String(n) && '"' !in String(n) && '\\' !in String(n)
    ensures forall i :: 0 <= i < |String(n)| ==> !IsSpace(String(n)[i]) && String(n)[i] >= ' '
    ensures Trimmed(String(n))
  {
  }

  /** Go's parser rejects an address without a prefix length. */
  lemma ParseRejectsBareAddress()
    ensures ParseCIDR("192.168.3.1") == None
    ensures ParseCIDR("127.0.0.256") == None
  {
    assert '/' !in "192.168.3.1";
    assert '/' !in "127.0.0.256";
  }

  /** The containment examples of the whitelist's tests. */
  lemma ContainsExamples()
    ensures Cidr(0xC0A8_0300, 24).Valid()
    ensures Contains(Cidr(0xC0A8_0300, 24), [192, 168, 3, 1])
    ensures !Contains(Cidr(0xC0A8_0300, 24), [192, 168, 4, 1])
    ensures Contains(Cidr(0xC0A8_0700, 24), [192, 168, 7, 255])
  {
    assert HostSize(24) == 256;
  }
}

=== FILE: json_array.dfy ===
/** The part of JSON (RFC 8259) the new whitelist encoding uses: an array
    of strings (sections 5 and 7), with white space allowed between tokens
    (section 2). Strings are read without escape sequences. */
module JsonArray {
  import opened Wrappers
  import opened Strings

  /** Insignificant white space, section 2 of RFC 8259. */
  predicate IsJsonSpace(c: char) {
    c == ' ' || c == '\t' || c == '\n' || c == '\r'
  }

  predicate AllJsonSpace(s: string) {
    forall i :: 0 <= i < |s| ==> IsJsonSpace(s[i])
  }

  /** A character a JSON string may hold without an escape (section 7). */
  predicate IsPlain(c: char) {
    c != '"' && c != '\\' && c >= ' '
  }

  predicate AllPlain(s: string) {
    forall i :: 0 <= i < |s| ==> IsPlain(s[i])
  }

  /** `s` without its leading white space. */
  function SkipSpace(s: string): (r: string)
    ensures |r| <= |s|
    ensures |r| == 0 || !IsJsonSpace(r[0])
    decreases |s|
  {
    if |s| > 0 && IsJsonSpace(s[0]) then SkipSpace(s[1..]) else s
  }

  /** The body of a string literal whose opening quote has been read: its
      characters up to the closing quote, and the text after that quote. */
  function ScanString(s: string): (r: Option<(string, string)>)
    ensures r.Some? ==> |r.value.1| < |s|
    decreases |s|
  {
    if |s| == 0 then None
    else if s[0] == '"' then Some(("", s[1..]))
    else if !IsPlain(s[0]) then None
    else
      match ScanString(s[1..])
      case None => None
      case Some((body, rest)) => Some(([s[0]] + body, rest))
  }

  /** A string literal at the head of `s`, and the text after it. */
  function ReadString(s: string): (r: Option<(string, string)>)
    ensures r.Some? ==> |r.value.1| < |s|
  {
    if |s| > 0 && s[0] == '"' then ScanString(s[1..]) else None
  }

  /** The elements of a non-empty array after its `[`: string literals
      separated by commas, the closing `]`, then only white space. */
  function ReadElements(s: string): (r: Option<seq<string>>)
    decreases |s|
  {
    var t := SkipSpace(s);
    match ReadString(t)
    case None => None
    case Some((v, rest)) =>
      var u := SkipSpace(rest);
      if |u| > 0 && u[0] == ']' then
        if AllJsonSpace(u[1..]) then Some([v]) else None
      else if |u| > 0 && u[0] == ',' then
        match ReadElements(u[1..])
        case None => None
        case Some(vs) => Some([v] + vs)
      else None
  }

  /** `json.Unmarshal` of a whole document into a `[]string`, for arrays
      whose strings carry no escape sequences. */
  function ReadStringArray(s: string): (r: Option<seq<string>>)
  {
    var t := SkipSpace(s);
    if |t| == 0 || t[0] != '[' then None
    else
      var u := SkipSpace(t[1..]);
      if |u| > 0 && u[0] == ']' then
        if AllJsonSpace(u[1..]) then Some([]) else None
      else ReadElements(u)
  }

  /** One array element as laid out in a document: white space before the
      string literal, its text, white space after it. */
  datatype Element = Element(before: string, text: string, after: string)

  predicate WellSpaced(e: Element) {
    AllJsonSpace(e.before) && AllPlain(e.text) && AllJsonSpace(e.after)
  }

  /** One element with its surrounding white space. */
  function Item(e: Element): string {
    e.before + "\"" + e.text + "\"" + e.after
  }

  /** The elements, commas and closing bracket of a non-empty array. */
  function RenderElements(es: seq<Element>): string
    requires |es| >= 1
    decreases |es|
  {
    Item(es[0]) + (if |es| == 1 then "]" else "," + RenderElements(es[1..]))
  }

  /** An array document with any layout; `gap` is the white space inside
      an empty array. */
  function Render(es: seq<Element>, gap: string): string
  {
    "[" + (if |es| == 0 then gap + "]" else RenderElements(es))
  }

  function Texts(es: seq<Element>): (ts: seq<string>)
    ensures |ts| == |es| && forall k :: 0 <= k < |es| ==> ts[k] == es[k].text
  {
    seq(|es|, k requires 0 <= k < |es| => es[k].text)
  }

  /** The elements of a compact document: no white space at all. */
  function Bare(ss: seq<string>): (es: seq<Element>)
    ensures |es| == |ss| && forall k :: 0 <= k < |ss| ==> es[k] == Element("", ss[k], "")
  {
    seq(|ss|, k requires 0 <= k < |ss| => Element("", ss[k], ""))
  }

  lemma {:induction false} SkipLeadingSpace(w: string, t: string)
    requires AllJsonSpace(w)
    requires |t| == 0 || !IsJsonSpace(t[0])
    ensures SkipSpace(w + t) == t
    decreases |w|
  {
    if |w| > 0 {
      assert (w + t)[1..] == w[1..] + t;
      SkipLeadingSpace(w[1..], t);
    }
  }

  lemma {:induction false} ScanPlain(text: string, rest: string)
    requires AllPlain(text)
    ensures ScanString(text + "\"" + rest) == Some((text, rest))
    decreases |text|
  {
    if |text| > 0 {
      assert (text + "\"" + rest)[1..] == text[1..] + "\"" + rest;
      ScanPlain(text[1..], rest);
      assert [text[0]] + text[1..] == text;
    } else {
      assert (text + "\"" + rest)[1..] == rest;
    }
  }

  lemma ItemShape(e: Element, tail: string)
    ensures Item(e) + tail == e.before + ("\"" + e.text + "\"" + e.after + tail)
    ensures ("\"" + e.text + "\"" + e.after + tail)[1..] == e.text + "\"" + (e.after + tail)
  {
  }

  lemma ReadElement(e: Element, tail: string)
    requires WellSpaced(e)
    requires |tail| > 0 && !IsJsonSpace(tail[0])
    ensures ReadString(SkipSpace(Item(e) + tail)) == Some((e.text, e.after + tail))
    ensures SkipSpace(e.after + tail) == tail
  {
    ItemShape(e, tail);
    SkipLeadingSpace(e.before, "\"" + e.text + "\"" + e.after + tail);
    ScanPlain(e.text, e.after + tail);
    SkipLeadingSpace(e.after, tail);
  }

  lemma {:induction false} ReadRenderedElements(es: seq<Element>)
    requires |es| >= 1
    requires forall k :: 0 <= k < |es| ==> WellSpaced(es[k])
    ensures ReadElements(RenderElements(es)) == Some(Texts(es))
    decreases |es|
  {
    var e := es[0];
    if |es| == 1 {
      assert RenderElements(es) == Item(e) + "]";
      ReadElement(e, "]");
      assert "]"[1..] == "";
      assert Texts(es) == [e.text];
    } else {
      var tail := "," + RenderElements(es[1..]);
      assert RenderElements(es) == Item(e) + tail;
      ReadElement(e, tail);
      assert tail[1..] == RenderElements(es[1..]);
      ReadRenderedElements(es[1..]);
      assert [e.text] + Texts(es[1..]) == Texts(es);
    }
  }

  lemma SkipSpaceIdempotent(s: string)
    ensures SkipSpace(SkipSpace(s)) == SkipSpace(s)
  {
  }

  /** Reading an array document yields its strings, whatever white space
      separates its tokens. */
  lemma ReadRendered(es: seq<Element>, gap: string)
    requires forall k :: 0 <= k < |es| ==> WellSpaced(es[k])
    requires AllJsonSpace(gap)
    ensures ReadStringArray(Render(es, gap)) == Some(Texts(es))
  {
    var s := Render(es, gap);
    var x := if |es| == 0 then gap + "]" else RenderElements(es);
    assert s == "[" + x && s[1..] == x;
    SkipLeadingSpace("", s);
    assert "" + s == s;
    if |es| == 0 {
      SkipLeadingSpace(gap, "]");
      assert "]"[1..] == "";
    } else {
      var e := es[0];
      var tail := if |es| == 1 then "]" else "," + RenderElements(es[1..]);
      assert x == Item(e) + tail;
      ItemShape(e, tail);
      SkipLeadingSpace(e.before, "\"" + e.text + "\"" + e.after + tail);
      SkipSpaceIdempotent(x);
      ReadRenderedElements(es);
    }
  }

  lemma {:induction false} CompactElements(ss: seq<string>)
    requires |ss| >= 1
    ensures RenderElements(Bare(ss)) == "\"" + Join(ss, "\",\"") + "\"]"
    decreases |ss|
  {
    if |ss| > 1 {
      CompactElements(ss[1..]);
      assert Bare(ss)[1..] == Bare(ss[1..]);
    }
  }

  /** The compact array `["s1","s2",...]` written by joining with `","` is
      the layout without white space. */
  lemma CompactIsRender(ss: seq<string>)
    requires |ss| >= 1
    ensures "[\"" + Join(ss, "\",\"") + "\"]" == Render(Bare(ss), "")
  {
    CompactElements(ss);
  }

  lemma {:induction false} RenderElementsCloses(es: seq<Element>)
    requires |es| >= 1
    ensures |RenderElements(es)| >= 1 && RenderElements(es)[|RenderElements(es)| - 1] == ']'
    decreases |es|
  {
    if |es| > 1 {
      RenderElementsCloses(es[1..]);
    }
  }

  /** Every rendered document is bracketed, so it is recognised as the
      array shape. */
  lemma RenderBrackets(es: seq<Element>, gap: string)
    ensures var s := Render(es, gap); |s| >= 2 && s[0] == '[' && s[|s| - 1] == ']'
  {
    if |es| > 0 {
      RenderElementsCloses(es);
    }
  }
}

=== FILE: strings.dfy ===
/** The pieces of Go's `strings` package the whitelist codec relies on:
    `TrimSpace`, `Split` on a one-character separator, `Join` and `Cut`. */
module Strings {
  import opened Wrappers

  /** Go's ASCII white space as `strings.TrimSpace` sees it. */
  predicate IsSpace(c: char) {
    c == ' ' || c == '\t' || c == '\n' || c == '\r' || c == '\U{0B}' || c == '\U{0C}'
  }

  predicate AllSpace(s: string) {
    forall i :: 0 <= i < |s| ==> IsSpace(s[i])
  }

  /** Neither end of `s` is white space. */
  predicate Trimmed(s: string) {
    |s| == 0 || (!IsSpace(s[0]) && !IsSpace(s[|s| - 1]))
  }

  function TrimLeft(s: string): (r: string)
    ensures |r| <= |s|
    ensures |r| == 0 || !IsSpace(r[0])
    decreases |s|
  {
    if |s| > 0 && IsSpace(s[0]) then TrimLeft(s[1..]) else s
  }

  function TrimRight(s: string): (r: string)
    ensures |r| <= |s|
    ensures |r| == 0 || !IsSpace(r[|r| - 1])
    decreases |s|
  {
    if |s| > 0 && IsSpace(s[|s| - 1]) then TrimRight(s[..|s| - 1]) else s
  }

  /** `strings.TrimSpace`: `s` with leading and trailing white space
      removed (`TrimSpaceInfix` shows that nothing else is removed). */
  function TrimSpace(s: string): (r: string)
    ensures |r| <= |s| && Trimmed(r)
  {
    var l := TrimLeft(s);
    TrimRightDropsSpace(l);
    TrimRight(l)
  }

  /** `r` is the slice of `s` at `i` and only white space surrounds it. */
  predicate TrimmedAt(s: string, i: nat, r: string) {
    i + |r| <= |s| && r == s[i..i + |r|] && AllSpace(s[..i]) && AllSpace(s[i + |r|..])
  }

  /** `TrimLeft` keeps a suffix and drops only white space before it. */
  lemma {:induction false} TrimLeftDropsSpace(s: string)
    ensures TrimLeft(s) == s[|s| - |TrimLeft(s)|..]
    ensures AllSpace(s[..|s| - |TrimLeft(s)|])
    decreases |s|
  {
    if |s| > 0 && IsSpace(s[0]) {
      TrimLeftDropsSpace(s[1..]);
      assert s[..|s| - |TrimLeft(s)|] == [s[0]] + s[1..][..|s| - 1 - |TrimLeft(s)|];
    }
  }

  /** `TrimRight` keeps a prefix and drops only white space after it. */
  lemma {:induction false} TrimRightDropsSpace(s: string)
    ensures TrimRight(s) == s[..|TrimRight(s)|]
    ensures AllSpace(s[|TrimRight(s)|..])
    decreases |s|
  {
    if |s| > 0 && IsSpace(s[|s| - 1]) {
      var p := s[..|s| - 1];
      TrimRightDropsSpace(p);
      assert s[|TrimRight(s)|..] == p[|TrimRight(p)|..] + [s[|s| - 1]];
    }
  }

  /** Trimming removes white space from the two ends and nothing else. */
  lemma TrimSpaceInfix(s: string)
    ensures exists i :: TrimmedAt(s, i, TrimSpace(s))
  {
    var l := TrimLeft(s);
    var r := TrimRight(l);
    var i := |s| - |l|;
    TrimLeftDropsSpace(s);
    TrimRightDropsSpace(l);
    assert l == s[i..];
    assert r == l[..|r|] == s[i..i + |r|];
    assert s[i + |r|..] == l[|r|..];
    assert AllSpace(s[..i]) && AllSpace(s[i + |r|..]);
    assert r == TrimSpace(s);
    assert TrimmedAt(s, i, r);
  }

  /** A string whose ends are not white space is its own trim. */
  lemma TrimSpaceOfTrimmed(s: string)
    requires Trimmed(s)
    ensures TrimSpace(s) == s
  {
  }

  lemma {:induction false} TrimLeftAllSpace(s: string)
    requires AllSpace(s)
    ensures TrimLeft(s) == []
    decreases |s|
  {
    if |s| > 0 {
      TrimLeftAllSpace(s[1..]);
    }
  }

  /** A token trims to the empty string exactly when it is all white space. */
  lemma TrimSpaceEmpty(s: string)
    ensures TrimSpace(s) == [] <==> AllSpace(s)
  {
    if AllSpace(s) {
      TrimLeftAllSpace(s);
    }
    if TrimSpace(s) == [] {
      TrimSpaceInfix(s);
      var i: nat :| TrimmedAt(s, i, TrimSpace(s));
      assert s == s[..i] + s[i..];
    }
  }

  /** `strings.Split(s, sep)` for a one-character separator: the pieces
      between separators, always at least one (`Split("", c) == [""]`). */
  function Split(s: string, sep: char): (r: seq<string>)
    ensures |r| >= 1
    ensures forall k :: 0 <= k < |r| ==> sep !in r[k]
    decreases |s|
  {
    if |s| == 0 then [""]
    else if s[0] == sep then [""] + Split(s[1..], sep)
    else
      var rest := Split(s[1..], sep);
      [[s[0]] + rest[0]] + rest[1..]
  }

  /** `strings.Join(ss, sep)`. */
  function Join(ss: seq<string>, sep: string): string
    decreases |ss|
  {
    if |ss| == 0 then ""
    else if |ss| == 1 then ss[0]
    else ss[0] + sep + Join(ss[1..], sep)
  }

  /** Index of the first occurrence of `c` in `s`. */
  function IndexOf(s: string, c: char): (i: nat)
    requires c in s
    ensures i < |s| && s[i] == c && c !in s[..i]
    decreases |s|
  {
    if s[0] == c then 0
    else
      var i := IndexOf(s[1..], c);
      assert s[..i + 1] == [s[0]] + s[1..][..i];
      i + 1
  }

  /** `strings.Cut(s, [c])`: the text before and after the first `c`,
      or `None` when `c` does not occur. */
  function Cut(s: string, c: char): (r: Option<(string, string)>)
    ensures r.None? <==> c !in s
    ensures r.Some? ==> c !in r.value.0 && s == r.value.0 + [c] + r.value.1
  {
    if c !in s then None
    else
      var i := IndexOf(s, c);
      assert s == s[..i] + [c] + s[i + 1..];
      Some((s[..i], s[i + 1..]))
  }

  lemma CutAt(a: string, c: char, b: string)
    requires c !in a
    ensures Cut(a + [c] + b, c) == Some((a, b))
  {
    var s := a + [c] + b;
    assert s[|a|] == c;
    var i := IndexOf(s, c);
    assert forall k :: 0 <= k < |a| ==> s[k] == a[k];
    assert s[..i] == a;
    assert s[i + 1..] == b;
  }

  lemma {:induction false} SplitNoSeparator(a: string, sep: char)
    requires sep !in a
    ensures Split(a, sep) == [a]
    decreases |a|
  {
    if |a| > 0 {
      SplitNoSeparator(a[1..], sep);
      assert [a[0]] + a[1..] == a;
    }
  }

  lemma {:induction false} SplitAtSeparator(a: string, sep: char, rest: string)
    requires sep !in a
    ensures Split(a + [sep] + rest, sep) == [a] + Split(rest, sep)
    decreases |a|
  {
    var s := a + [sep] + rest;
    if |a| == 0 {
      assert s[1..] == rest;
    } else {
      assert s[1..] == a[1..] + [sep] + rest;
      SplitAtSeparator(a[1..], sep, rest);
      assert [a[0]] + a[1..] == a;
    }
  }

  /** Splitting undoes joining when no piece holds the separator. */
  lemma {:induction false} SplitJoin(ss: seq<string>, sep: char)
    requires |ss| >= 1
    requires forall k :: 0 <= k < |ss| ==> sep !in ss[k]
    ensures Split(Join(ss, [sep]), sep) == ss
    decreases |ss|
  {
    if |ss| == 1 {
      SplitNoSeparator(ss[0], sep);
    } else {
      SplitJoin(ss[1..], sep);
      SplitAtSeparator(ss[0], sep, Join(ss[1..], [sep]));
      assert [ss[0]] + ss[1..] == ss;
    }
  }

  predicate NoSpace(s: string) {
    forall i :: 0 <= i < |s| ==> !IsSpace(s[i])
  }

  /** Joining space-free pieces with a space-free separator adds no space. */
  lemma {:induction false} JoinNoSpace(ss: seq<string>, sep: string)
    requires forall k :: 0 <= k < |ss| ==> NoSpace(ss[k])
    requires NoSpace(sep)
    ensures NoSpace(Join(ss, sep))
    decreases |ss|
  {
    if |ss| > 1 {
      JoinNoSpace(ss[1..], sep);
      var j := Join(ss[1..], sep);
      assert Join(ss, sep) == ss[0] + sep + j;
      forall i | 0 <= i < |ss[0] + sep + j|
        ensures !IsSpace((ss[0] + sep + j)[i])
      {
        if i < |ss[0]| {
          assert (ss[0] + sep + j)[i] == ss[0][i];
        } else if i < |ss[0]| + |sep| {
          assert (ss[0] + sep + j)[i] == sep[i - |ss[0]|];
        } else {
          assert (ss[0] + sep + j)[i] == j[i - |ss[0]| - |sep|];
        }
      }
    }
  }
}

=== FILE: whitelist_dual.dfy ===
/** The dual whitelist `BasicDual`: a host whitelist and a network
    whitelist consulted together. The asynchronous launch policy runs both
    checks concurrently and reads their answers off a channel; here the
    order in which the answers arrive is a parameter. */
module WhitelistDual {
  import opened Wrappers
  import opened IPv4
  import opened WhitelistHost
  import WhitelistNet

  const LaunchPolicySequenced: int := 0
  const LaunchPolicyAsync: int := 1

  datatype BasicDual = BasicDual(addresses: HostAcl, networks: WhitelistNet.NetAcl, launchPolicy: int)

  /** Which answer reaches the channel first under the asynchronous policy. */
  datatype Arrival = AddressesFirst | NetworksFirst

  /** One of the two sub-checks. */
  datatype Side = AddressCheck | NetworkCheck

  /** A check's answer and the sub-checks it ran, in order. */
  datatype Outcome = Outcome(permitted: bool, ran: seq<Side>)

  /** What `Permitted` needs to run to completion: the network check must
      be safe whenever it runs, which under the sequenced policy is only
      when the host check says no. */
  predicate CanRun(wl: BasicDual, ip: IP) {
    if wl.launchPolicy == LaunchPolicySequenced then
      HostPermitted(wl.addresses, ip) || WhitelistNet.NetCanCheck(wl.networks, ip)
    else
      WhitelistNet.NetCanCheck(wl.networks, ip)
  }

  /** The network answer where it is defined. */
  predicate NetworkSays(wl: BasicDual, ip: IP) {
    WhitelistNet.NetCanCheck(wl.networks, ip) && WhitelistNet.NetPermitted(wl.networks, ip)
  }

  /** `<-res || <-res`: the first answer to arrive, or-ed with the second
      only when the first is false. */
  function Receive(first: bool, second: bool): (r: bool)
    ensures r <==> first || second
  {
    if first then true else second
  }

  /** The receiving end does not depend on which answer arrives first, and
      once a first `true` is in, the second answer is never needed. */
  lemma ReceiveOrderFree(a: bool, b: bool, c: bool)
    ensures Receive(a, b) == Receive(b, a)
    ensures Receive(true, b) == Receive(true, c)
  {
  }

  /** `BasicDual.Permitted`. Sequenced: the host check, then the network
      check only if the host check refused. Any other policy: both checks
      run and their answers are or-ed in arrival order. */
  function Permitted(wl: BasicDual, ip: IP, arrival: Arrival): (r: Outcome)
    requires CanRun(wl, ip)
    ensures r.permitted <==> HostPermitted(wl.addresses, ip) || NetworkSays(wl, ip)
    ensures wl.launchPolicy == LaunchPolicySequenced
            ==> |r.ran| >= 1 && r.ran[0] == AddressCheck
                && (NetworkCheck in r.ran <==> !HostPermitted(wl.addresses, ip))
    ensures wl.launchPolicy != LaunchPolicySequenced
            ==> |r.ran| == 2 && AddressCheck in r.ran && NetworkCheck in r.ran
  {
    var host := HostPermitted(wl.addresses, ip);
    if wl.launchPolicy == LaunchPolicySequenced then
      if host then Outcome(true, [AddressCheck])
      else Outcome(WhitelistNet.NetPermitted(wl.networks, ip), [AddressCheck, NetworkCheck])
    else
      var network := WhitelistNet.NetPermitted(wl.networks, ip);
      match arrival
      case AddressesFirst => Outcome(Receive(host, network), [AddressCheck, NetworkCheck])
      case NetworksFirst => Outcome(Receive(network, host), [NetworkCheck, AddressCheck])
  }

  /** The two launch policies, and every arrival order, give the same
      answer. */
  lemma PolicyParity(wl: BasicDual, ip: IP, a: Arrival, b: Arrival)
    requires WhitelistNet.NetCanCheck(wl.networks, ip)
    ensures CanRun(wl.(launchPolicy := LaunchPolicySequenced), ip)
    ensures CanRun(wl.(launchPolicy := LaunchPolicyAsync), ip)
    ensures Permitted(wl.(launchPolicy := LaunchPolicySequenced), ip, a).permitted
            == Permitted(wl.(launchPolicy := LaunchPolicyAsync), ip, b).permitted
  {
  }

  /** `AddAddress`: only the host side changes. */
  function AddAddress(wl: BasicDual, ip: IP): (r: BasicDual)
    ensures r.networks == wl.networks && r.launchPolicy == wl.launchPolicy
    ensures r.addresses == HostAdd(wl.addresses, ip)
  {
    wl.(addresses := HostAdd(wl.addresses, ip))
  }

  /** `AddNetwork`: only the network side changes. */
  function AddNetwork(wl: BasicDual, n: Option<Network>): (r: BasicDual)
    ensures r.addresses == wl.addresses && r.launchPolicy == wl.launchPolicy
    ensures r.networks == WhitelistNet.NetAdd(wl.networks, n)
  {
    wl.(networks := WhitelistNet.NetAdd(wl.networks, n))
  }

  /** `RemoveAddress`: only the host side changes. */
  function RemoveAddress(wl: BasicDual, ip: IP): (r: BasicDual)
    ensures r.networks == wl.networks && r.launchPolicy == wl.launchPolicy
    ensures r.addresses == HostRemove(wl.addresses, ip)
  {
    wl.(addresses := HostRemove(wl.addresses, ip))
  }

  /** `RemoveNetwork`: only the network side changes. */
  function RemoveNetwork(wl: BasicDual, n: Option<Network>): (r: BasicDual)
    ensures r.addresses == wl.addresses && r.launchPolicy == wl.launchPolicy
    ensures r.networks == WhitelistNet.NetRemove(wl.networks, n)
  {
    wl.(networks := WhitelistNet.NetRemove(wl.networks, n))
  }

  /** `NewBasicDual`: empty host and network whitelists, the network one
      in the compatibility format. */
  function NewBasicDual(launchPolicy: int): (r: BasicDual)
    ensures r.launchPolicy == launchPolicy
    ensures r.addresses == NewBasic()
    ensures r.networks == WhitelistNet.Basic(WhitelistNet.NewBasicNet())
  {
    BasicDual(NewBasic(), WhitelistNet.Basic(WhitelistNet.NewBasicNet()), launchPolicy)
  }

  /** `NewStubDual`: both sides stubbed, sequenced policy. */
  function NewStubDual(hostVerdict: bool): (r: BasicDual)
    ensures r.launchPolicy == LaunchPolicySequenced
    ensures r.addresses.HostStub? && r.networks.NetStub?
  {
    BasicDual(NewHostStub(hostVerdict), WhitelistNet.NewNetStub(), LaunchPolicySequenced)
  }

  /** A fresh dual whitelist permits nothing, under either policy. */
  lemma NewBasicDualDeniesAll(launchPolicy: int, ip: IP, arrival: Arrival)
    ensures CanRun(NewBasicDual(launchPolicy), ip)
    ensures !Permitted(NewBasicDual(launchPolicy), ip, arrival).permitted
  {
  }

  /** The stubbed dual whitelist permits every input, whatever the host
      stub answers. */
  lemma StubDualPermitsAll(hostVerdict: bool, ip: IP, arrival: Arrival)
    ensures CanRun(NewStubDual(hostVerdict), ip)
    ensures Permitted(NewStubDual(hostVerdict), ip, arrival).permitted
  {
  }

  /** After `AddNetwork(n)` on a basic network side, every valid address
      in `n` is permitted; other answers are kept. */
  lemma AddNetworkPermits(wl: BasicDual, n: Network, ip: IP, arrival: Arrival)
    requires wl.networks.Basic? && WhitelistNet.NetCanCheck(wl.networks, ip)
    ensures CanRun(AddNetwork(wl, Some(n)), ip)
    ensures Permitted(AddNetwork(wl, Some(n)), ip, arrival).permitted
            <==> Permitted(wl, ip, arrival).permitted || (ValidIP(ip) && Contains(n, ip))
  {
    WhitelistNet.PermittedAfterAdd(wl.networks.acl, n, ip);
  }

  /** After `AddAddress(ip)` on a basic host side, a valid `ip` is
      permitted; other addresses get the same answer as before. */
  lemma AddAddressPermits(wl: BasicDual, ip: IP, other: IP, arrival: Arrival)
    requires wl.addresses.HostBasic? && ValidIP(ip)
    requires CanRun(wl, ip) && CanRun(wl, other)
    ensures CanRun(AddAddress(wl, ip), ip)
    ensures Permitted(AddAddress(wl, ip), ip, arrival).permitted
    ensures other != ip ==> (CanRun(AddAddress(wl, ip), other)
                             && Permitted(AddAddress(wl, ip), other, arrival) == Permitted(wl, other, arrival))
  {
  }

  /** After `RemoveAddress(ip)` on a basic host side, `ip` is permitted
      only through the network side. */
  lemma RemoveAddressLeavesNetworks(wl: BasicDual, ip: IP, arrival: Arrival)
    requires wl.addresses.HostBasic? && WhitelistNet.NetCanCheck(wl.networks, ip)
    ensures CanRun(RemoveAddress(wl, ip), ip)
    ensures Permitted(RemoveAddress(wl, ip), ip, arrival).permitted <==> NetworkSays(wl, ip)
  {
  }

  /** On a nil-free basic network side, `RemoveNetwork` never grants
      access that was not granted before. */
  lemma RemoveNetworkNeverGrants(wl: BasicDual, n: Option<Network>, ip: IP, arrival: Arrival)
    requires wl.networks.Basic? && WhitelistNet.NoNil(wl.networks.acl.whitelist) && ValidIP(ip)
    ensures CanRun(wl, ip) && CanRun(RemoveNetwork(wl, n), ip)
    ensures Permitted(RemoveNetwork(wl, n), ip, arrival).permitted ==> Permitted(wl, ip, arrival).permitted
  {
    WhitelistNet.RemoveNeverGrants(wl.networks.acl, n, ip);
  }
}

=== FILE: whitelist_host.dfy ===
/** The host whitelist behind the `HostACL` interface. Its implementation
    is not part of this model: a basic host whitelist is a set of
    addresses, and the host stub's answer is a parameter. */
module WhitelistHost {
  import opened IPv4

  datatype HostAcl = HostBasic(addresses: set<IP>) | HostStub(verdict: bool)

  /** `NewBasic`: an empty host whitelist. */
  function NewBasic(): (r: HostAcl)
    ensures r.HostBasic? && r.addresses == {}
  {
    HostBasic({})
  }

  /** `NewHostStub`, answering `verdict` to every check. */
  function NewHostStub(verdict: bool): (r: HostAcl)
    ensures r.HostStub?
  {
    HostStub(verdict)
  }

  /** `HostACL.Permitted`: a basic whitelist permits exactly its valid
      listed addresses. */
  function HostPermitted(h: HostAcl, ip: IP): bool
  {
    match h
    case HostBasic(addresses) => ValidIP(ip) && ip in addresses
    case HostStub(verdict) => verdict
  }

  /** `HostACL.Add`: a basic whitelist records the address; the stub
      ignores it. */
  function HostAdd(h: HostAcl, ip: IP): (r: HostAcl)
    ensures h.HostStub? ==> r == h
    ensures h.HostBasic? ==> r.HostBasic? && (ValidIP(ip) ==> HostPermitted(r, ip))
    ensures forall x :: x != ip ==> HostPermitted(r, x) == HostPermitted(h, x)
  {
    match h
    case HostBasic(addresses) => HostBasic(addresses + {ip})
    case HostStub(_) => h
  }

  /** `HostACL.Remove`: a basic whitelist forgets the address; the stub
      ignores it. */
  function HostRemove(h: HostAcl, ip: IP): (r: HostAcl)
    ensures h.HostStub? ==> r == h
    ensures h.HostBasic? ==> r.HostBasic? && !HostPermitted(r, ip)
    ensures forall x :: x != ip ==> HostPermitted(r, x) == HostPermitted(h, x)
  {
    match h
    case HostBasic(addresses) => HostBasic(addresses - {ip})
    case HostStub(_) => h
  }
}

=== FILE: whitelist_net.dfy ===
/** The network whitelist `BasicNet`: an ordered list of IPv4 networks
    with a linear membership scan, append-only `Add`, first-match
    `Remove`, and a two-shape JSON codec. Locking is left out: every
    operation is a pure function from one whitelist state to the next. */
module WhitelistNet {
  import opened Wrappers
  import opened Strings
  import opened IPv4
  import JsonArray

  /** Output encodings (declared beside the host whitelist). */
  const JsonFormatCompatibility: int := 0
  const JsonFormatNew: int := 1

  /** One entry of the list, Go's `*net.IPNet`; `None` is a nil pointer,
      which only the decoder ever stores. */
  type Slot = Option<Network>

  datatype BasicNet = BasicNet(jsonFormat: int, whitelist: seq<Slot>)

  datatype WhitelistError =
    | UnsupportedFormat
    | InvalidWhitelist
    | InvalidJson
    | InvalidNetwork(addr: string)

  /** `IPNet.String`, which renders a nil network as `<nil>`. */
  function SlotString(s: Slot): string
  {
    match s
    case None => "<nil>"
    case Some(n) => String(n)
  }

  /** A slot is written `<nil>` exactly when it is nil: no network has that
      text form. */
  lemma SlotStringNil(s: Slot)
    ensures SlotString(s) == "<nil>" <==> s.None?
  {
    if s.Some? {
      assert SlotString(s)[0] != '<';
    }
  }

  /** Comparing text forms, as `Remove` does, is comparing networks: a nil
      slot never matches and distinct networks have distinct text. */
  lemma SlotMatches(s: Slot, n: Network)
    ensures SlotString(s) == String(n) <==> s == Some(n)
  {
    StringInjective(n, n);
    match s
    case None =>
      assert String(n)[0] != '<';
    case Some(m) =>
      StringInjective(m, n);
  }

  predicate NoNil(slots: seq<Slot>) {
    forall i :: 0 <= i < |slots| ==> slots[i].Some?
  }

  // ----- Permitted -----

  /** Some non-nil entry contains the address. */
  predicate Listed(slots: seq<Slot>, ip: IP)
    requires ValidIP(ip)
  {
    exists i :: 0 <= i < |slots| && slots[i].Some? && Contains(slots[i].value, ip)
  }

  /** The scan never reaches a nil entry (whose `Contains` would
      dereference nil): every entry before the first match is non-nil. */
  predicate ScanSafe(slots: seq<Slot>, ip: IP)
    requires ValidIP(ip)
    decreases |slots|
  {
    |slots| == 0 || (slots[0].Some? && (Contains(slots[0].value, ip) || ScanSafe(slots[1..], ip)))
  }

  lemma {:induction false} NoNilScanSafe(slots: seq<Slot>, ip: IP)
    requires ValidIP(ip) && NoNil(slots)
    ensures ScanSafe(slots, ip)
    decreases |slots|
  {
    if |slots| > 0 {
      NoNilScanSafe(slots[1..], ip);
    }
  }

  /** What `Permitted` needs to run to completion. */
  predicate CanCheck(wl: BasicNet, ip: IP) {
    ValidIP(ip) ==> ScanSafe(wl.whitelist, ip)
  }

  /** The `for` loop of `Permitted`: true at the first entry containing the
      address. */
  function Scan(slots: seq<Slot>, ip: IP): (r: bool)
    requires ValidIP(ip) && ScanSafe(slots, ip)
    ensures r <==> Listed(slots, ip)
    decreases |slots|
  {
    if |slots| == 0 then false
    else if Contains(slots[0].value, ip) then true
    else
      var r := Scan(slots[1..], ip);
      assert Listed(slots[1..], ip) ==> Listed(slots, ip) by {
        if Listed(slots[1..], ip) {
          var i :| 0 <= i < |slots[1..]| && slots[1..][i].Some? && Contains(slots[1..][i].value, ip);
          assert slots[i + 1] == slots[1..][i];
        }
      }
      assert Listed(slots, ip) ==> Listed(slots[1..], ip) by {
        if Listed(slots, ip) {
          var i :| 0 <= i < |slots| && slots[i].Some? && Contains(slots[i].value, ip);
          assert i != 0;
          assert slots[1..][i - 1] == slots[i];
        }
      }
      r
  }

  /** `BasicNet.Permitted`: an invalid address is refused outright; a valid
      one is permitted exactly when some listed network contains it. */
  function Permitted(wl: BasicNet, ip: IP): (r: bool)
    requires CanCheck(wl, ip)
    ensures !ValidIP(ip) ==> !r
    ensures ValidIP(ip) ==> (r <==> Listed(wl.whitelist, ip))
  {
    if !ValidIP(ip) then false else Scan(wl.whitelist, ip)
  }

  // ----- Add and Remove -----

  /** `BasicNet.Add`: nil is ignored; otherwise the network is appended,
      duplicates and overlaps included. */
  function Add(wl: BasicNet, n: Option<Network>): (r: BasicNet)
    ensures r.jsonFormat == wl.jsonFormat
    ensures n.None? ==> r == wl
    ensures n.Some? ==> |r.whitelist| == |wl.whitelist| + 1
    ensures n.Some? ==> r.whitelist[..|wl.whitelist|] == wl.whitelist && r.whitelist[|wl.whitelist|] == n
  {
    match n
    case None => wl
    case Some(_) => wl.(whitelist := wl.whitelist + [n])
  }

  /** Index of the first element at or after `k` equal to `x`. */
  function FirstIndex<T(==)>(xs: seq<T>, x: T, k: nat): (r: Option<nat>)
    requires k <= |xs|
    ensures r.None? ==> forall i :: k <= i < |xs| ==> xs[i] != x
    ensures r.Some? ==> k <= r.value < |xs| && xs[r.value] == x
    ensures r.Some? ==> forall j :: k <= j < r.value ==> xs[j] != x
    decreases |xs| - k
  {
    if k == |xs| then None
    else if xs[k] == x then Some(k)
    else FirstIndex(xs, x, k + 1)
  }

  /** The search loop of `Remove`: the index of the first slot whose text
      form is `s`. */
  function FirstMatch(slots: seq<Slot>, s: string): (r: Option<nat>)
    ensures r.None? ==> forall i :: 0 <= i < |slots| ==> SlotString(slots[i]) != s
    ensures r.Some? ==> r.value < |slots| && SlotString(slots[r.value]) == s
    ensures r.Some? ==> forall j :: 0 <= j < r.value ==> SlotString(slots[j]) != s
  {
    FirstIndex(NetworkStrings(slots), s, 0)
  }

  /** `i` is the first position whose slot renders as `s`. */
  predicate IsFirstMatch(slots: seq<Slot>, s: string, i: int) {
    0 <= i < |slots| && SlotString(slots[i]) == s
    && forall j :: 0 <= j < i ==> SlotString(slots[j]) != s
  }

  /** There is at most one first match. */
  lemma FirstMatchUnique(slots: seq<Slot>, s: string, i: int)
    requires IsFirstMatch(slots, s, i)
    ensures forall j :: IsFirstMatch(slots, s, j) ==> j == i
  {
    forall j | IsFirstMatch(slots, s, j)
      ensures j == i
    {
    }
  }

  /** The loop and splice of `Remove` for the text form `s`. */
  function RemoveText(slots: seq<Slot>, s: string): seq<Slot> {
    match FirstMatch(slots, s)
    case None => slots
    case Some(i) => slots[..i] + slots[i + 1..]
  }

  /** `RemoveText` keeps the list when nothing matches and otherwise drops
      exactly the first match. */
  lemma RemoveTextSpec(slots: seq<Slot>, s: string)
    ensures (forall i :: 0 <= i < |slots| ==> SlotString(slots[i]) != s) ==> RemoveText(slots, s) == slots
    ensures forall i :: IsFirstMatch(slots, s, i) ==> RemoveText(slots, s) == slots[..i] + slots[i + 1..]
  {
    var f := FirstMatch(slots, s);
    if f.Some? {
      FirstMatchUnique(slots, s, f.value);
    }
  }

  /** `BasicNet.Remove`: nil is ignored; otherwise the first entry whose
      text form equals the argument's is dropped and the others keep their
      order; if none matches nothing changes. */
  function Remove(wl: BasicNet, n: Option<Network>): (r: BasicNet)
    ensures r.jsonFormat == wl.jsonFormat
    ensures n.None? ==> r == wl
    ensures n.Some? && (forall i :: 0 <= i < |wl.whitelist| ==> SlotString(wl.whitelist[i]) != String(n.value))
            ==> r == wl
    ensures n.Some? ==> forall i :: (IsFirstMatch(wl.whitelist, String(n.value), i)
            ==> r.whitelist == wl.whitelist[..i] + wl.whitelist[i + 1..])
  {
    match n
    case None => wl
    case Some(m) =>
      RemoveTextSpec(wl.whitelist, String(m));
      wl.(whitelist := RemoveText(wl.whitelist, String(m)))
  }

  /** `NewBasicNet2`: an empty list that encodes in the given format. */
  function NewBasicNet2(jsonFormat: int): (r: BasicNet)
    ensures r.jsonFormat == jsonFormat && |r.whitelist| == 0
  {
    BasicNet(jsonFormat, [])
  }

  /** `NewBasicNet`: an empty list in the compatibility format. */
  function NewBasicNet(): (r: BasicNet)
    ensures r.jsonFormat == JsonFormatCompatibility && |r.whitelist| == 0
  {
    NewBasicNet2(JsonFormatCompatibility)
  }

  // ----- The NetACL interface -----

  /** A value of the `NetACL` interface: the basic list, or `NetStub`,
      which permits everything and ignores changes (its warnings are
      left out). */
  datatype NetAcl = Basic(acl: BasicNet) | NetStub

  /** `NewNetStub`. */
  function NewNetStub(): (r: NetAcl)
    ensures r.NetStub?
  {
    NetStub
  }

  predicate NetCanCheck(a: NetAcl, ip: IP) {
    a.Basic? ==> CanCheck(a.acl, ip)
  }

  /** `NetACL.Permitted`: the stub says yes to every input, valid or not. */
  function NetPermitted(a: NetAcl, ip: IP): (r: bool)
    requires NetCanCheck(a, ip)
    ensures a.NetStub? ==> r
    ensures a.Basic? && ValidIP(ip) ==> (r <==> Listed(a.acl.whitelist, ip))
    ensures a.Basic? && !ValidIP(ip) ==> !r
  {
    match a
    case NetStub => true
    case Basic(acl) => Permitted(acl, ip)
  }

  /** `NetACL.Add`: the stub ignores it. */
  function NetAdd(a: NetAcl, n: Option<Network>): (r: NetAcl)
    ensures a.NetStub? ==> r == a
    ensures a.Basic? ==> r == Basic(Add(a.acl, n))
  {
    match a
    case NetStub => NetStub
    case Basic(acl) => Basic(Add(acl, n))
  }

  /** `NetACL.Remove`: the stub ignores it. */
  function NetRemove(a: NetAcl, n: Option<Network>): (r: NetAcl)
    ensures a.NetStub? ==> r == a
    ensures a.Basic? ==> r == Basic(Remove(a.acl, n))
  {
    match a
    case NetStub => NetStub
    case Basic(acl) => Basic(Remove(acl, n))
  }

  // ----- JSON encoding -----

  function NetworkStrings(slots: seq<Slot>): (ss: seq<string>)
    ensures |ss| == |slots| && forall i :: 0 <= i < |slots| ==> ss[i] == SlotString(slots[i])
  {
    seq(|slots|, i requires 0 <= i < |slots| => SlotString(slots[i]))
  }

  /** `BasicNet.MarshalJSON`: one quoted comma-separated string, or a JSON
      array of strings; any other format is an error. The two shapes are
      told apart by their first and last characters. */
  function MarshalJSON(wl: BasicNet): (r: Result<string, WhitelistError>)
    ensures r.Failure? <==> wl.jsonFormat != JsonFormatCompatibility && wl.jsonFormat != JsonFormatNew
    ensures r.Failure? ==> r.error == UnsupportedFormat
    ensures r.Success? ==> |r.value| >= 2
    ensures r.Success? && wl.jsonFormat == JsonFormatCompatibility
            ==> r.value[0] == '"' && r.value[|r.value| - 1] == '"'
    ensures r.Success? && wl.jsonFormat == JsonFormatNew
            ==> r.value[0] == '[' && r.value[|r.value| - 1] == ']'
  {
    var ss := NetworkStrings(wl.whitelist);
    if wl.jsonFormat == JsonFormatCompatibility then
      Success("\"" + Join(ss, ",") + "\"")
    else if wl.jsonFormat == JsonFormatNew then
      if |ss| > 0 then Success("[\"" + Join(ss, "\",\"") + "\"]") else Success("[]")
    else
      Failure(UnsupportedFormat)
  }

  // ----- JSON decoding -----

  /** The outcome of `UnmarshalJSON`: the whitelist afterwards and the
      error returned, if any. */
  datatype Decoded = Decoded(acl: BasicNet, err: Option<WhitelistError>)

  /** Inputs `UnmarshalJSON` reads without indexing out of range: not
      empty, and not a lone `"` (whose inner slice would be inverted). */
  predicate Readable(input: string) {
    |input| >= 1 && input != "\""
  }

  /** The input is in the new shape: `[` ... `]`. */
  predicate NewShape(input: string)
    requires |input| >= 1
  {
    input[0] == '[' && input[|input| - 1] == ']'
  }

  /** The input is in the compatibility shape: `"` ... `"`. */
  predicate CompatShape(input: string)
    requires |input| >= 1
  {
    input[0] == '"' && input[|input| - 1] == '"'
  }

  /** Shape detection and tokenising: the compatibility shape splits the
      trimmed inside of the quotes at commas, the new shape is read as a
      JSON array of strings. */
  function Tokens(input: string): (r: Result<seq<string>, WhitelistError>)
    requires Readable(input)
    ensures !NewShape(input) && !CompatShape(input) ==> r == Failure(InvalidWhitelist)
    ensures !NewShape(input) && CompatShape(input)
            ==> |input| >= 2 && r == Success(Split(TrimSpace(input[1..|input| - 1]), ','))
    ensures NewShape(input) ==> r.Success? || r == Failure(InvalidJson)
    ensures NewShape(input) ==> (r.Success? <==> JsonArray.ReadStringArray(input).Some?)
    ensures NewShape(input) && r.Success? ==> JsonArray.ReadStringArray(input) == Some(r.value)
  {
    var newFormat := input[0] == '[' && input[|input| - 1] == ']';
    if !newFormat && (input[0] != '"' || input[|input| - 1] != '"') then
      Failure(InvalidWhitelist)
    else if !newFormat then
      Success(Split(TrimSpace(input[1..|input| - 1]), ','))
    else
      match JsonArray.ReadStringArray(input)
      case None => Failure(InvalidJson)
      case Some(nets) => Success(nets)
  }

  /** A token that trims to nothing; the decoder skips it. */
  predicate Blank(token: string) {
    TrimSpace(token) == ""
  }

  /** A token the decoder rejects: not blank, and not a CIDR network. */
  predicate Bad(token: string) {
    !Blank(token) && ParseCIDR(TrimSpace(token)).None?
  }

  function CountBlank(tokens: seq<string>): (c: nat)
    ensures c <= |tokens|
    decreases |tokens|
  {
    if |tokens| == 0 then 0
    else (if Blank(tokens[0]) then 1 else 0) + CountBlank(tokens[1..])
  }

  /** Index of the first token at or after `k` the decoder rejects. */
  function FirstBad(tokens: seq<string>, k: nat): (r: Option<nat>)
    requires k <= |tokens|
    ensures r.None? <==> forall i :: k <= i < |tokens| ==> !Bad(tokens[i])
    ensures r.Some? ==> k <= r.value < |tokens| && Bad(tokens[r.value])
    ensures r.Some? ==> forall j :: k <= j < r.value ==> !Bad(tokens[j])
    decreases |tokens| - k
  {
    if k == |tokens| then None
    else if Bad(tokens[k]) then Some(k)
    else FirstBad(tokens, k + 1)
  }

  /** The slot a token fills: nil when blank, otherwise its network. */
  function TokenSlot(token: string): Slot
  {
    if Blank(token) then None else ParseCIDR(TrimSpace(token))
  }

  /** The slots the fill loop stores for tokens `k` on when none is bad:
      one per token, nil for a blank one. */
  function TokenSlots(tokens: seq<string>, k: nat): (r: seq<Slot>)
    requires k <= |tokens|
    ensures |r| == |tokens| - k
    ensures forall i :: k <= i < |tokens| ==> r[i - k] == TokenSlot(tokens[i])
  {
    seq(|tokens| - k, j requires 0 <= j < |tokens| - k => TokenSlot(tokens[k + j]))
  }

  /** Extending the slots by one token at the front. */
  lemma TokenSlotsCons(tokens: seq<string>, k: nat)
    requires k < |tokens|
    ensures TokenSlots(tokens, k) == [TokenSlot(tokens[k])] + TokenSlots(tokens, k + 1)
  {
  }

  /** The fill loop of `UnmarshalJSON` from token `k` on: it returns at the
      first token that does not parse, naming it; otherwise every token has
      filled its slot, nil for a blank one. */
  function ParseTokens(tokens: seq<string>, k: nat): (r: Result<seq<Slot>, WhitelistError>)
    requires k <= |tokens|
    ensures r.Success? <==> FirstBad(tokens, k).None?
    ensures r.Success? ==> r.value == TokenSlots(tokens, k)
    ensures r.Success? ==> |r.value| == |tokens| - k
    ensures r.Success? ==> forall i :: k <= i < |tokens| ==> r.value[i - k] == TokenSlot(tokens[i])
    ensures r.Failure? ==> r.error == InvalidNetwork(TrimSpace(tokens[FirstBad(tokens, k).value]))
    decreases |tokens| - k
  {
    if k == |tokens| then Success([])
    else if Bad(tokens[k]) then
      Failure(InvalidNetwork(TrimSpace(tokens[k])))
    else
      match ParseTokens(tokens, k + 1)
      case Failure(e) => Failure(e)
      case Success(slots) =>
        TokenSlotsCons(tokens, k);
        Success([TokenSlot(tokens[k])] + slots)
  }

  /** The tail of `UnmarshalJSON`: fill the slots, then drop as many from the END as
      there were blank tokens; a token that fails to parse leaves the list
      empty. */
  function Fill(wl: BasicNet, tokens: seq<string>): (r: Decoded)
    ensures r.acl.jsonFormat == wl.jsonFormat
    ensures r.err.Some? <==> FirstBad(tokens, 0).Some?
    ensures r.err.Some? ==> r.acl.whitelist == [] && r.err.value == InvalidNetwork(TrimSpace(tokens[FirstBad(tokens, 0).value]))
    ensures r.err.None? ==> |r.acl.whitelist| == |tokens| - CountBlank(tokens)
  {
    match ParseTokens(tokens, 0)
    case Failure(e) => Decoded(wl.(whitelist := []), Some(e))
    case Success(slots) => Decoded(wl.(whitelist := slots[..|tokens| - CountBlank(tokens)]), None)
  }

  /** `BasicNet.UnmarshalJSON`. A wrong outer shape or malformed JSON is
      reported before the list is touched; a network that fails to parse
      empties the list. */
  function UnmarshalJSON(wl: BasicNet, input: string): (r: Decoded)
    requires Readable(input)
    ensures r.acl.jsonFormat == wl.jsonFormat
    ensures !NewShape(input) && !CompatShape(input) ==> r == Decoded(wl, Some(InvalidWhitelist))
    ensures r.err == Some(InvalidJson) ==> NewShape(input) && r.acl == wl
    ensures r.err.Some? && r.err.value.InvalidNetwork? ==> r.acl.whitelist == []
  {
    match Tokens(input)
    case Failure(e) => Decoded(wl, Some(e))
    case Success(tokens) => Fill(wl, tokens)
  }

  // ----- Add and Remove, as seen by Permitted -----

  lemma {:induction false} ScanSafeAppend(slots: seq<Slot>, n: Network, ip: IP)
    requires ValidIP(ip) && ScanSafe(slots, ip)
    ensures ScanSafe(slots + [Some(n)], ip)
    decreases |slots|
  {
    var t := slots + [Some(n)];
    if |slots| > 0 {
      assert t[0] == slots[0];
      if !Contains(slots[0].value, ip) {
        ScanSafeAppend(slots[1..], n, ip);
        assert t[1..] == slots[1..] + [Some(n)];
      }
    }
  }

  /** After `Add(n)` an address is permitted exactly when it was before or
      `n` contains it; a list that could be checked still can. */
  lemma PermittedAfterAdd(wl: BasicNet, n: Network, ip: IP)
    requires CanCheck(wl, ip)
    ensures CanCheck(Add(wl, Some(n)), ip)
    ensures Permitted(Add(wl, Some(n)), ip) <==> Permitted(wl, ip) || (ValidIP(ip) && Contains(n, ip))
  {
    if ValidIP(ip) {
      var w := wl.whitelist;
      var t := Add(wl, Some(n)).whitelist;
      ScanSafeAppend(w, n, ip);
      assert t == w + [Some(n)];
      if Listed(t, ip) {
        var i :| 0 <= i < |t| && t[i].Some? && Contains(t[i].value, ip);
        if i < |w| {
          assert w[i] == t[i];
        }
      }
      if Listed(w, ip) {
        var i :| 0 <= i < |w| && w[i].Some? && Contains(w[i].value, ip);
        assert t[i] == w[i];
      }
      assert t[|w|] == Some(n);
    }
  }

  /** Removing a network that is not listed changes nothing. */
  lemma RemoveAbsent(wl: BasicNet, n: Network)
    requires Some(n) !in wl.whitelist
    ensures Remove(wl, Some(n)) == wl
  {
    forall i | 0 <= i < |wl.whitelist|
      ensures SlotString(wl.whitelist[i]) != String(n)
    {
      SlotMatches(wl.whitelist[i], n);
    }
  }

  /** `Remove(n)` drops exactly the first entry equal to `n`. */
  lemma RemoveFirstOccurrence(wl: BasicNet, n: Network, i: nat)
    requires i < |wl.whitelist| && wl.whitelist[i] == Some(n)
    requires Some(n) !in wl.whitelist[..i]
    ensures Remove(wl, Some(n)).whitelist == wl.whitelist[..i] + wl.whitelist[i + 1..]
  {
    var w := wl.whitelist;
    SlotMatches(w[i], n);
    forall j | 0 <= j < i
      ensures SlotString(w[j]) != String(n)
    {
      assert w[j] == w[..i][j];
      SlotMatches(w[j], n);
    }
    assert IsFirstMatch(w, String(n), i);
  }

  /** `Remove` undoes an `Add` of a network that was not yet listed. */
  lemma RemoveUndoesAdd(wl: BasicNet, n: Network)
    requires Some(n) !in wl.whitelist
    ensures Remove(Add(wl, Some(n)), Some(n)) == wl
  {
    var t := Add(wl, Some(n)).whitelist;
    assert t[..|wl.whitelist|] == wl.whitelist;
    RemoveFirstOccurrence(Add(wl, Some(n)), n, |wl.whitelist|);
    assert t[..|wl.whitelist|] + t[|wl.whitelist| + 1..] == wl.whitelist;
  }

  /** Duplicates are kept: adding a network twice and removing it once
      leaves one copy, so its addresses stay permitted. */
  lemma AddTwiceRemoveOnce(wl: BasicNet, n: Network)
    requires Some(n) !in wl.whitelist
    ensures Remove(Add(Add(wl, Some(n)), Some(n)), Some(n)) == Add(wl, Some(n))
  {
    var w := wl.whitelist;
    var t := Add(Add(wl, Some(n)), Some(n)).whitelist;
    assert t == w + [Some(n), Some(n)];
    assert t[..|w|] == w;
    RemoveFirstOccurrence(Add(Add(wl, Some(n)), Some(n)), n, |w|);
    assert t[..|w|] + t[|w| + 1..] == w + [Some(n)];
  }

  /** Cutting one element out of a sequence leaves only its elements. */
  lemma SpliceKeepsOnly<T>(xs: seq<T>, i: nat)
    requires i < |xs|
    ensures forall x :: x in xs[..i] + xs[i + 1..] ==> x in xs
  {
    forall x | x in xs[..i] + xs[i + 1..]
      ensures x in xs
    {
      if x in xs[..i] {
        var j :| 0 <= j < i && xs[..i][j] == x;
        assert xs[j] == x;
      } else {
        var j :| 0 <= j < |xs[i + 1..]| && xs[i + 1..][j] == x;
        assert xs[i + 1 + j] == x;
      }
    }
  }

  /** `Remove` only ever drops entries. */
  lemma RemoveKeepsOnlyListed(wl: BasicNet, n: Option<Network>)
    ensures forall s :: s in Remove(wl, n).whitelist ==> s in wl.whitelist
  {
    var w := wl.whitelist;
    if n.Some? {
      var f := FirstMatch(w, String(n.value));
      if f.Some? {
        var i := f.value;
        assert IsFirstMatch(w, String(n.value), i);
        assert Remove(wl, n).whitelist == w[..i] + w[i + 1..];
        SpliceKeepsOnly(w, i);
      }
    }
  }

  /** On a list without nil entries `Remove` keeps the list nil-free and
      never grants access that was not granted before. */
  lemma RemoveNeverGrants(wl: BasicNet, n: Option<Network>, ip: IP)
    requires NoNil(wl.whitelist) && ValidIP(ip)
    ensures NoNil(Remove(wl, n).whitelist)
    ensures CanCheck(wl, ip) && CanCheck(Remove(wl, n), ip)
    ensures Permitted(Remove(wl, n), ip) ==> Permitted(wl, ip)
  {
    var w := wl.whitelist;
    var r := Remove(wl, n).whitelist;
    RemoveKeepsOnlyListed(wl, n);
    forall k | 0 <= k < |r|
      ensures r[k].Some?
    {
      assert r[k] in w;
    }
    NoNilScanSafe(w, ip);
    NoNilScanSafe(r, ip);
    if Listed(r, ip) {
      var k :| 0 <= k < |r| && r[k].Some? && Contains(r[k].value, ip);
      assert r[k] in w;
      var j :| 0 <= j < |w| && w[j] == r[k];
    }
  }

  // ----- Decoding lemmas -----

  lemma {:induction false} CountBlankTrailing(tokens: seq<string>, k: nat)
    requires k <= |tokens|
    requires forall i :: 0 <= i < k ==> !Blank(tokens[i])
    requires forall i :: k <= i < |tokens| ==> Blank(tokens[i])
    ensures CountBlank(tokens) == |tokens| - k
    decreases |tokens|
  {
    if |tokens| > 0 {
      if k > 0 {
        CountBlankTrailing(tokens[1..], k - 1);
      } else {
        CountBlankTrailing(tokens[1..], 0);
      }
    }
  }

  /** When every blank token comes after every network, the decoded list
      holds the networks in order and nothing else. */
  lemma FillTrailingBlanks(wl: BasicNet, tokens: seq<string>, k: nat)
    requires k <= |tokens|
    requires forall i :: 0 <= i < k ==> !Blank(tokens[i]) && ParseCIDR(TrimSpace(tokens[i])).Some?
    requires forall i :: k <= i < |tokens| ==> Blank(tokens[i])
    ensures Fill(wl, tokens).err.None?
    ensures |Fill(wl, tokens).acl.whitelist| == k
    ensures forall i :: 0 <= i < k ==> Fill(wl, tokens).acl.whitelist[i] == ParseCIDR(TrimSpace(tokens[i]))
  {
    assert FirstBad(tokens, 0).None? by {
      assert forall i :: 0 <= i < |tokens| ==> !Bad(tokens[i]);
    }
    CountBlankTrailing(tokens, k);
    var slots := ParseTokens(tokens, 0).value;
    assert Fill(wl, tokens).acl.whitelist == slots[..k];
    forall i | 0 <= i < k
      ensures slots[..k][i] == ParseCIDR(TrimSpace(tokens[i]))
    {
      assert slots[i] == TokenSlot(tokens[i]);
    }
  }

  /** Decoding the text forms of a nil-free list gives the list back. */
  lemma FillNetworkStrings(wl: BasicNet, w: seq<Slot>)
    requires NoNil(w)
    ensures Fill(wl, NetworkStrings(w)) == Decoded(wl.(whitelist := w), None)
  {
    var ss := NetworkStrings(w);
    forall i | 0 <= i < |ss|
      ensures !Blank(ss[i]) && ParseCIDR(TrimSpace(ss[i])) == w[i]
    {
      StringIsPlain(w[i].value);
      TrimSpaceOfTrimmed(ss[i]);
      ParseString(w[i].value);
    }
    FillTrailingBlanks(wl, ss, |ss|);
    var r := Fill(wl, ss).acl.whitelist;
    assert r == w;
  }

  /** The text of any slot, `<nil>` included, is a non-empty trimmed piece
      with no comma, quote, backslash, control character or white space. */
  lemma SlotTextPlain(s: Slot)
    ensures |SlotString(s)| > 0 && Trimmed(SlotString(s))
    ensures ',' !in SlotString(s) && NoSpace(SlotString(s)) && JsonArray.AllPlain(SlotString(s))
  {
    if s.Some? {
      StringIsPlain(s.value);
    }
  }

  /** The pieces the encoder joins: commas, quotes, backslashes, control
      characters and white space never occur in them. */
  lemma NetworkStringsPlain(w: seq<Slot>)
    ensures forall k :: 0 <= k < |w| ==> ',' !in NetworkStrings(w)[k] && NoSpace(NetworkStrings(w)[k])
    ensures forall k :: 0 <= k < |w| ==> JsonArray.AllPlain(NetworkStrings(w)[k])
  {
    forall k | 0 <= k < |w|
      ensures ',' !in NetworkStrings(w)[k] && NoSpace(NetworkStrings(w)[k])
      ensures JsonArray.AllPlain(NetworkStrings(w)[k])
    {
      SlotTextPlain(w[k]);
    }
  }

  /** Tokens of a document in the new shape that reads as an array. */
  lemma NewShapeTokens(input: string, ss: seq<string>)
    requires |input| >= 2 && input[0] == '[' && input[|input| - 1] == ']'
    requires JsonArray.ReadStringArray(input) == Some(ss)
    ensures Readable(input) && Tokens(input) == Success(ss)
  {
  }

  /** A document in the new shape that reads as an array of strings
      decodes element by element: without error exactly when no element is
      a bad token, then one entry per non-blank element; otherwise the list
      is emptied and the error names a network. */
  lemma NewShapeDecode(wl: BasicNet, input: string, ss: seq<string>)
    requires |input| >= 2 && input[0] == '[' && input[|input| - 1] == ']'
    requires JsonArray.ReadStringArray(input) == Some(ss)
    ensures Readable(input)
    ensures UnmarshalJSON(wl, input).err.None? <==> forall i :: 0 <= i < |ss| ==> !Bad(ss[i])
    ensures UnmarshalJSON(wl, input).err.None?
            ==> |UnmarshalJSON(wl, input).acl.whitelist| == |ss| - CountBlank(ss)
    ensures UnmarshalJSON(wl, input).err.Some?
            ==> UnmarshalJSON(wl, input).err.value.InvalidNetwork? && UnmarshalJSON(wl, input).acl.whitelist == []
  {
    NewShapeTokens(input, ss);
  }

  lemma CompatRoundTrip(wl: BasicNet, target: BasicNet)
    requires wl.jsonFormat == JsonFormatCompatibility && NoNil(wl.whitelist)
    ensures MarshalJSON(wl).Success? && Readable(MarshalJSON(wl).value)
    ensures UnmarshalJSON(target, MarshalJSON(wl).value) == Decoded(target.(whitelist := wl.whitelist), None)
  {
    var ss := NetworkStrings(wl.whitelist);
    var j := Join(ss, ",");
    var out := MarshalJSON(wl).value;
    assert out == "\"" + j + "\"";
    NetworkStringsPlain(wl.whitelist);
    JoinNoSpace(ss, ",");
    assert Trimmed(j);
    CompatTokens(j);
    assert UnmarshalJSON(target, out) == Fill(target, Split(j, ','));
    if |ss| == 0 {
      assert j == "";
      assert Split(j, ',') == [""];
      TrimSpaceOfTrimmed("");
      FillTrailingBlanks(target, [""], 0);
    } else {
      SplitJoin(ss, ',');
      FillNetworkStrings(target, wl.whitelist);
    }
  }

  /** A compatibility document holding a single token that is not a
      network empties the list and names that token. */
  lemma CompatSingleBad(target: BasicNet, token: string)
    requires Trimmed(token) && token != "" && ',' !in token && ParseCIDR(token).None?
    ensures Readable("\"" + token + "\"")
    ensures UnmarshalJSON(target, "\"" + token + "\"") == Decoded(target.(whitelist := []), Some(InvalidNetwork(token)))
  {
    CompatTokens(token);
    SplitNoSeparator(token, ',');
    TrimSpaceOfTrimmed(token);
    assert Bad(token);
    assert FirstBad([token], 0) == Some(0);
  }

  /** The one-entry list `[nil]` is written `"<nil>"`, and decoding that
      fails and empties the list. */
  lemma NilOnlyListExample(target: BasicNet)
    ensures MarshalJSON(BasicNet(JsonFormatCompatibility, [None])) == Success("\"<nil>\"")
    ensures Readable("\"<nil>\"")
    ensures UnmarshalJSON(target, "\"<nil>\"") == Decoded(target.(whitelist := []), Some(InvalidNetwork("<nil>")))
  {
    var text := "<nil>";
    assert NetworkStrings([None]) == [text];
    assert "\"" + text + "\"" == "\"<nil>\"";
    assert Trimmed(text) && ',' !in text && '/' !in text;
    CompatSingleBad(target, text);
  }

  /** `<nil>` is a token the decoder rejects, naming it as it is. */
  lemma NilTokenBad()
    ensures TrimSpace("<nil>") == "<nil>" && Bad("<nil>")
  {
    var text := "<nil>";
    assert Trimmed(text) && '/' !in text;
    TrimSpaceOfTrimmed(text);
  }

  /** Among the text forms of a list holding a nil entry, the first token
      the decoder rejects is a `<nil>`. */
  lemma NilTokenFirstBad(w: seq<Slot>)
    requires None in w
    ensures FirstBad(NetworkStrings(w), 0).Some?
    ensures TrimSpace(NetworkStrings(w)[FirstBad(NetworkStrings(w), 0).value]) == "<nil>"
  {
    var ss := NetworkStrings(w);
    NilTokenBad();
    var i :| 0 <= i < |w| && w[i] == None;
    assert Bad(ss[i]);
    var v := FirstBad(ss, 0).value;
    if w[v].Some? {
      NetworkToken(w[v].value);
      assert false;
    }
  }

  /** Both formats encode a non-empty list as documents whose tokens are
      the entries' text forms. */
  lemma EncodingTokens(wl: BasicNet)
    requires wl.jsonFormat == JsonFormatCompatibility || wl.jsonFormat == JsonFormatNew
    requires |wl.whitelist| >= 1
    ensures MarshalJSON(wl).Success? && Readable(MarshalJSON(wl).value)
    ensures Tokens(MarshalJSON(wl).value) == Success(NetworkStrings(wl.whitelist))
  {
    var ss := NetworkStrings(wl.whitelist);
    var out := MarshalJSON(wl).value;
    NetworkStringsPlain(wl.whitelist);
    if wl.jsonFormat == JsonFormatCompatibility {
      var j := Join(ss, ",");
      assert out == "\"" + j + "\"";
      JoinNoSpace(ss, ",");
      assert Trimmed(j);
      CompatTokens(j);
      SplitJoin(ss, ',');
    } else {
      NewEncodingReads(wl);
      NewShapeTokens(out, ss);
    }
  }

  /** A list holding a nil entry, which the decoder can produce, does not
      survive encoding and decoding in either format: the nil entry is
      written `<nil>`, which is not a network, so the decode fails on it
      and empties the list. */
  lemma NilEntryDoesNotRoundTrip(wl: BasicNet, target: BasicNet)
    requires wl.jsonFormat == JsonFormatCompatibility || wl.jsonFormat == JsonFormatNew
    requires None in wl.whitelist
    ensures MarshalJSON(wl).Success? && Readable(MarshalJSON(wl).value)
    ensures UnmarshalJSON(target, MarshalJSON(wl).value)
            == Decoded(target.(whitelist := []), Some(InvalidNetwork("<nil>")))
  {
    EncodingTokens(wl);
    NilTokenFirstBad(wl.whitelist);
  }

  /** The new-format encoding of a list reads as the array of its text
      forms. */
  lemma NewEncodingReads(wl: BasicNet)
    requires wl.jsonFormat == JsonFormatNew
    ensures MarshalJSON(wl).Success?
    ensures JsonArray.ReadStringArray(MarshalJSON(wl).value) == Some(NetworkStrings(wl.whitelist))
  {
    var ss := NetworkStrings(wl.whitelist);
    var out := MarshalJSON(wl).value;
    NetworkStringsPlain(wl.whitelist);
    if |ss| == 0 {
      assert out == "[]" == JsonArray.Render([], "");
      JsonArray.ReadRendered([], "");
    } else {
      assert out == "[\"" + Join(ss, "\",\"") + "\"]";
      JsonArray.CompactIsRender(ss);
      JsonArray.ReadRendered(JsonArray.Bare(ss), "");
      assert JsonArray.Texts(JsonArray.Bare(ss)) == ss;
    }
  }

  lemma NewRoundTrip(wl: BasicNet, target: BasicNet)
    requires wl.jsonFormat == JsonFormatNew && NoNil(wl.whitelist)
    ensures MarshalJSON(wl).Success? && Readable(MarshalJSON(wl).value)
    ensures UnmarshalJSON(target, MarshalJSON(wl).value) == Decoded(target.(whitelist := wl.whitelist), None)
  {
    var out := MarshalJSON(wl).value;
    NewEncodingReads(wl);
    NewShapeTokens(out, NetworkStrings(wl.whitelist));
    FillNetworkStrings(target, wl.whitelist);
  }

  /** Round trip: decoding what `MarshalJSON` wrote, in either format,
      restores the list (the target keeps its own format). */
  lemma MarshalRoundTrip(wl: BasicNet, target: BasicNet)
    requires wl.jsonFormat == JsonFormatCompatibility || wl.jsonFormat == JsonFormatNew
    requires NoNil(wl.whitelist)
    ensures MarshalJSON(wl).Success? && Readable(MarshalJSON(wl).value)
    ensures UnmarshalJSON(target, MarshalJSON(wl).value) == Decoded(target.(whitelist := wl.whitelist), None)
  {
    if wl.jsonFormat == JsonFormatCompatibility {
      CompatRoundTrip(wl, target);
    } else {
      NewRoundTrip(wl, target);
    }
  }

  /** The new format is read with any JSON white space between tokens, as
      an indenting encoder writes it. */
  lemma IndentedRoundTrip(es: seq<JsonArray.Element>, gap: string, w: seq<Slot>, target: BasicNet)
    requires NoNil(w) && |es| == |w|
    requires forall k :: 0 <= k < |es| ==> es[k].text == SlotString(w[k])
    requires forall k :: 0 <= k < |es| ==> JsonArray.AllJsonSpace(es[k].before) && JsonArray.AllJsonSpace(es[k].after)
    requires JsonArray.AllJsonSpace(gap)
    ensures Readable(JsonArray.Render(es, gap))
    ensures UnmarshalJSON(target, JsonArray.Render(es, gap)) == Decoded(target.(whitelist := w), None)
  {
    var doc := JsonArray.Render(es, gap);
    assert JsonArray.ReadStringArray(doc) == Some(NetworkStrings(w)) by {
      NetworkStringsPlain(w);
      assert JsonArray.Texts(es) == NetworkStrings(w);
      JsonArray.ReadRendered(es, gap);
    }
    JsonArray.RenderBrackets(es, gap);
    NewShapeTokens(doc, NetworkStrings(w));
    FillNetworkStrings(target, w);
  }

  // ----- Examples -----

  /** Empty lists encode as an empty quoted string or an empty array; any
      other format is refused. */
  lemma EmptyEncodings()
    ensures MarshalJSON(NewBasicNet()) == Success("\"\"")
    ensures MarshalJSON(NewBasicNet2(JsonFormatNew)) == Success("[]")
    ensures MarshalJSON(NewBasicNet2(2)) == Failure(UnsupportedFormat)
  {
    assert NetworkStrings([]) == [];
    assert Join([], ",") == "";
    assert "\"" + "" + "\"" == "\"\"";
  }

  /** The round-trip tests: `192.168.3.0/24` and `192.168.7.0/24` survive
      encoding and decoding in either format, and the decoded list permits
      `192.168.3.1` and `192.168.7.255`; an empty list decodes to an empty
      one, which refuses `192.168.3.1`. */
  lemma MarshalTestsExample(format: int, target: BasicNet)
    requires format == JsonFormatCompatibility || format == JsonFormatNew
    ensures Cidr(0xC0A8_0300, 24).Valid() && Cidr(0xC0A8_0700, 24).Valid()
    ensures var wl := Add(Add(NewBasicNet2(format), Some(Cidr(0xC0A8_0300, 24))), Some(Cidr(0xC0A8_0700, 24)));
            MarshalJSON(wl).Success? && Readable(MarshalJSON(wl).value)
            && var d := UnmarshalJSON(target, MarshalJSON(wl).value);
            d.err.None? && |d.acl.whitelist| == 2
            && CanCheck(d.acl, [192, 168, 3, 1]) && Permitted(d.acl, [192, 168, 3, 1])
            && CanCheck(d.acl, [192, 168, 7, 255]) && Permitted(d.acl, [192, 168, 7, 255])
    ensures MarshalJSON(NewBasicNet2(format)).Success? && Readable(MarshalJSON(NewBasicNet2(format)).value)
            && var d := UnmarshalJSON(target, MarshalJSON(NewBasicNet2(format)).value);
            d.err.None? && |d.acl.whitelist| == 0
            && CanCheck(d.acl, [192, 168, 3, 1]) && !Permitted(d.acl, [192, 168, 3, 1])
  {
    ContainsExamples();
    var a: Network := Cidr(0xC0A8_0300, 24);
    var b: Network := Cidr(0xC0A8_0700, 24);
    var wl := Add(Add(NewBasicNet2(format), Some(a)), Some(b));
    assert wl.whitelist == [Some(a), Some(b)];
    MarshalRoundTrip(wl, target);
    MarshalRoundTrip(NewBasicNet2(format), target);
    var d := UnmarshalJSON(target, MarshalJSON(wl).value);
    NoNilScanSafe(d.acl.whitelist, [192, 168, 3, 1]);
    NoNilScanSafe(d.acl.whitelist, [192, 168, 7, 255]);
    assert d.acl.whitelist[0] == Some(a);
    assert d.acl.whitelist[1] == Some(b);
  }

  /** The add, remove and refusal tests: adding nil and then
      `192.168.3.0/24`, removing nil, the unlisted `192.168.1.1/32` and then
      `192.168.3.0/24` leaves an empty list; a two-byte address is refused
      at every step. */
  lemma AddRemoveTestsExample()
    ensures Cidr(0xC0A8_0300, 24).Valid() && Cidr(0xC0A8_0101, 32).Valid()
    ensures var t := Add(Add(NewBasicNet(), None), Some(Cidr(0xC0A8_0300, 24)));
            Remove(Remove(Remove(t, None), Some(Cidr(0xC0A8_0101, 32))), Some(Cidr(0xC0A8_0300, 24))) == NewBasicNet()
            && CanCheck(t, [0, 0]) && !Permitted(t, [0, 0])
  {
    ContainsExamples();
    var a: Network := Cidr(0xC0A8_0300, 24);
    var c: Network := Cidr(0xC0A8_0101, 32);
    var t := Add(Add(NewBasicNet(), None), Some(a));
    assert t.whitelist == [Some(a)];
    RemoveAbsent(t, c);
    RemoveUndoesAdd(NewBasicNet(), a);
  }

  /** A comma-separated list without the surrounding quotes is refused
      and the whitelist is left as it was. */
  lemma RejectsUnquoted(wl: BasicNet)
    ensures UnmarshalJSON(wl, "192.168.3.1/24,127.0.0.1/32") == Decoded(wl, Some(InvalidWhitelist))
  {
  }

  /** Tokens of a compatibility document whose inside is already trimmed. */
  lemma CompatTokens(inner: string)
    requires Trimmed(inner)
    ensures Readable("\"" + inner + "\"")
    ensures Tokens("\"" + inner + "\"") == Success(Split(inner, ','))
  {
    var input := "\"" + inner + "\"";
    assert input[1..|input| - 1] == inner;
    TrimSpaceOfTrimmed(inner);
  }

  /** A compatibility document whose first token is not a network empties
      the whitelist and names that token. */
  lemma CompatFirstTokenBad(wl: BasicNet, a: string, b: string)
    requires a != "" && Trimmed(a) && Trimmed(b) && ',' !in a
    requires ParseCIDR(a).None?
    ensures Readable("\"" + a + "," + b + "\"")
    ensures UnmarshalJSON(wl, "\"" + a + "," + b + "\"") == Decoded(wl.(whitelist := []), Some(InvalidNetwork(a)))
  {
    var inner := a + "," + b;
    assert inner == a + [','] + b;
    assert "\"" + a + "," + b + "\"" == "\"" + inner + "\"";
    CompatTokens(inner);
    TrimSpaceOfTrimmed(a);
    SplitAtSeparator(a, ',', b);
    var tokens := Split(inner, ',');
    assert tokens[0] == a && Bad(tokens[0]);
    assert FirstBad(tokens, 0) == Some(0);
  }

  /** The second rejected input of the decoder's tests: the bare address
      `192.168.3.1` has no prefix length, so decoding stops at it. */
  lemma RejectsBadNetwork(wl: BasicNet)
    ensures UnmarshalJSON(wl, "\"192.168.3.1,127.0.0.256\"")
            == Decoded(wl.(whitelist := []), Some(InvalidNetwork("192.168.3.1")))
  {
    ParseRejectsBareAddress();
    assert "\"192.168.3.1,127.0.0.256\"" == "\"" + "192.168.3.1" + "," + "127.0.0.256" + "\"";
    CompatFirstTokenBad(wl, "192.168.3.1", "127.0.0.256");
  }

  // ----- Blank tokens before a network -----

  lemma EmptyTokenBlank()
    ensures Blank("") && !Bad("")
  {
    TrimSpaceOfTrimmed("");
  }

  /** The text form of a network is a token that parses back to it. */
  lemma NetworkToken(n: Network)
    ensures !Blank(String(n)) && !Bad(String(n))
    ensures ParseCIDR(TrimSpace(String(n))) == Some(n)
  {
    StringIsPlain(n);
    TrimSpaceOfTrimmed(String(n));
    ParseString(n);
  }

  lemma SplitBlankThen(t: string)
    requires ',' !in t
    ensures Split("," + t, ',') == ["", t]
  {
    assert "," + t == "" + [','] + t;
    SplitAtSeparator("", ',', t);
    SplitNoSeparator(t, ',');
  }

  /** `",n"` splits into a blank token and the network's text. */
  lemma InteriorBlankTokens(n: Network)
    ensures Readable("\"," + String(n) + "\"")
    ensures Tokens("\"," + String(n) + "\"") == Success(["", String(n)])
  {
    var t := String(n);
    var inner := "," + t;
    assert Trimmed(inner) && ',' !in t by {
      StringIsPlain(n);
      assert inner[|inner| - 1] == t[|t| - 1];
    }
    assert "\"," + t + "\"" == "\"" + inner + "\"";
    CompatTokens(inner);
    SplitBlankThen(t);
  }

  /** The as-written loop on a blank token followed by a network. */
  lemma FillBlankThenNetwork(wl: BasicNet, a: string, b: string, n: Network)
    requires Blank(a) && !Bad(a) && !Blank(b) && !Bad(b) && ParseCIDR(TrimSpace(b)) == Some(n)
    ensures Fill(wl, [a, b]) == Decoded(wl.(whitelist := [None]), None)
  {
    var tokens := [a, b];
    assert FirstBad(tokens, 0).None?;
    assert tokens[1..] == [b];
    assert CountBlank(tokens) == 1;
    assert ParseTokens(tokens, 0).value[0] == None;
  }

  /** As written, a blank token before a network leaves a nil entry and
      drops the network: `",192.168.3.0/24"` decodes to one nil entry, on
      which `Permitted` would dereference nil for every valid address. */
  lemma InteriorBlankLosesNetwork(wl: BasicNet, n: Network)
    ensures Readable("\"," + String(n) + "\"")
    ensures UnmarshalJSON(wl, "\"," + String(n) + "\"") == Decoded(wl.(whitelist := [None]), None)
    ensures forall ip :: ValidIP(ip) ==> !CanCheck(wl.(whitelist := [None]), ip)
  {
    InteriorBlankTokens(n);
    EmptyTokenBlank();
    NetworkToken(n);
    FillBlankThenNetwork(wl, "", String(n), n);
  }

  /** The networks of a slot list, nil entries dropped. */
  function Present(slots: seq<Slot>): (ns: seq<Network>)
    ensures |ns| <= |slots|
    decreases |slots|
  {
    if |slots| == 0 then []
    else (if slots[0].Some? then [slots[0].value] else []) + Present(slots[1..])
  }

  /** The evidently intended loop: blank tokens are skipped where they
      occur, so no nil entry is ever stored; errors are as written. */
  function ParseCompacted(tokens: seq<string>, k: nat): (r: Result<seq<Network>, WhitelistError>)
    requires k <= |tokens|
    ensures r.Success? <==> ParseTokens(tokens, k).Success?
    ensures r.Failure? ==> r == Failure(ParseTokens(tokens, k).error)
    decreases |tokens| - k
  {
    if k == |tokens| then Success([])
    else if Bad(tokens[k]) then Failure(InvalidNetwork(TrimSpace(tokens[k])))
    else
      match ParseCompacted(tokens, k + 1)
      case Failure(e) => Failure(e)
      case Success(ns) =>
        if Blank(tokens[k]) then Success(ns)
        else Success([ParseCIDR(TrimSpace(tokens[k])).value] + ns)
  }

  /** The corrected loop keeps every network the as-written loop parsed,
      in order, and nothing else. */
  lemma ParseTokensStep(tokens: seq<string>, k: nat)
    requires k < |tokens| && ParseTokens(tokens, k).Success?
    ensures !Bad(tokens[k]) && ParseTokens(tokens, k + 1).Success?
    ensures ParseTokens(tokens, k).value == [TokenSlot(tokens[k])] + ParseTokens(tokens, k + 1).value
  {
  }

  lemma ParseCompactedStep(tokens: seq<string>, k: nat)
    requires k < |tokens| && !Bad(tokens[k]) && ParseCompacted(tokens, k + 1).Success?
    ensures Blank(tokens[k]) ==> TokenSlot(tokens[k]) == None
    ensures Blank(tokens[k]) ==> ParseCompacted(tokens, k) == ParseCompacted(tokens, k + 1)
    ensures !Blank(tokens[k]) ==> TokenSlot(tokens[k]).Some?
    ensures !Blank(tokens[k]) ==> ParseCompacted(tokens, k) == Success([TokenSlot(tokens[k]).value] + ParseCompacted(tokens, k + 1).value)
  {
  }

  lemma PresentCons(x: Slot, rest: seq<Slot>)
    ensures x.None? ==> Present([x] + rest) == Present(rest)
    ensures x.Some? ==> Present([x] + rest) == [x.value] + Present(rest)
  {
    assert ([x] + rest)[1..] == rest;
  }

  lemma {:induction false} CompactedIsPresent(tokens: seq<string>, k: nat)
    requires k <= |tokens| && ParseTokens(tokens, k).Success?
    ensures ParseCompacted(tokens, k) == Success(Present(ParseTokens(tokens, k).value))
    decreases |tokens| - k
  {
    if k < |tokens| {
      ParseTokensStep(tokens, k);
      var x := TokenSlot(tokens[k]);
      var rest := ParseTokens(tokens, k + 1).value;
      CompactedIsPresent(tokens, k + 1);
      assert ParseCompacted(tokens, k + 1) == Success(Present(rest));
      ParseCompactedStep(tokens, k);
      PresentCons(x, rest);
      if Blank(tokens[k]) {
        assert ParseCompacted(tokens, k) == Success(Present([x] + rest));
      } else {
        assert ParseCompacted(tokens, k) == Success([x.value] + Present(rest));
      }
    }
  }

  function Wrap(ns: seq<Network>): (slots: seq<Slot>)
    ensures NoNil(slots) && Present(slots) == ns
    decreases |ns|
  {
    if |ns| == 0 then []
    else
      var rest := Wrap(ns[1..]);
      var slots := [Some(ns[0])] + rest;
      assert slots[1..] == rest;
      assert [ns[0]] + ns[1..] == ns;
      slots
  }

  /** The corrected fill: the same errors as `Fill`; on success exactly
      the networks the tokens name, with no nil entry. */
  function FillCompacted(wl: BasicNet, tokens: seq<string>): (r: Decoded)
    ensures r.acl.jsonFormat == wl.jsonFormat
    ensures r.err == Fill(wl, tokens).err
    ensures r.err.Some? ==> r.acl.whitelist == []
    ensures r.err.None? ==> (ParseTokens(tokens, 0).Success? && NoNil(r.acl.whitelist)
                             && Present(r.acl.whitelist) == Present(ParseTokens(tokens, 0).value))
  {
    match ParseCompacted(tokens, 0)
    case Failure(e) => Decoded(wl.(whitelist := []), Some(e))
    case Success(ns) =>
      CompactedIsPresent(tokens, 0);
      Decoded(wl.(whitelist := Wrap(ns)), None)
  }

  /** `UnmarshalJSON` with the corrected fill. */
  function UnmarshalJSONCompacted(wl: BasicNet, input: string): (r: Decoded)
    requires Readable(input)
    ensures r.acl.jsonFormat == wl.jsonFormat
    ensures r.err == UnmarshalJSON(wl, input).err
    ensures r.err.Some? ==> r.acl == UnmarshalJSON(wl, input).acl
    ensures r.err.None? ==> NoNil(r.acl.whitelist)
  {
    match Tokens(input)
    case Failure(e) => Decoded(wl, Some(e))
    case Success(tokens) => FillCompacted(wl, tokens)
  }

  lemma {:induction false} PresentSplit(slots: seq<Slot>, i: nat)
    requires i <= |slots|
    ensures Present(slots) == Present(slots[..i]) + Present(slots[i..])
    decreases |slots|
  {
    if i > 0 {
      PresentSplit(slots[1..], i - 1);
      assert slots[1..][..i - 1] == slots[..i][1..];
      assert slots[1..][i - 1..] == slots[i..];
    }
  }

  lemma {:induction false} PresentAllNil(slots: seq<Slot>)
    requires forall i :: 0 <= i < |slots| ==> slots[i].None?
    ensures Present(slots) == []
    decreases |slots|
  {
    if |slots| > 0 {
      PresentAllNil(slots[1..]);
    }
  }

  lemma {:induction false} WrapPresent(slots: seq<Slot>)
    requires NoNil(slots)
    ensures Wrap(Present(slots)) == slots
    decreases |slots|
  {
    if |slots| > 0 {
      WrapPresent(slots[1..]);
      assert Present(slots) == [slots[0].value] + Present(slots[1..]);
      assert Present(slots)[1..] == Present(slots[1..]);
    }
  }

  /** With blank tokens only at the end, the as-written slots are the
      kept prefix followed by nil entries only. */
  lemma TrailingSlots(wl: BasicNet, tokens: seq<string>, k: nat)
    requires k <= |tokens|
    requires forall i :: 0 <= i < k ==> !Blank(tokens[i]) && ParseCIDR(TrimSpace(tokens[i])).Some?
    requires forall i :: k <= i < |tokens| ==> Blank(tokens[i])
    ensures ParseTokens(tokens, 0).Success? && Fill(wl, tokens).err.None?
    ensures Fill(wl, tokens).acl.whitelist == ParseTokens(tokens, 0).value[..k]
    ensures NoNil(Fill(wl, tokens).acl.whitelist)
    ensures forall i :: 0 <= i < |ParseTokens(tokens, 0).value[k..]| ==> ParseTokens(tokens, 0).value[k..][i].None?
  {
    FillTrailingBlanks(wl, tokens, k);
    CountBlankTrailing(tokens, k);
    assert FirstBad(tokens, 0).None? by {
      assert forall i :: 0 <= i < |tokens| ==> !Bad(tokens[i]);
    }
    assert Fill(wl, tokens).acl.whitelist == ParseTokens(tokens, 0).value[..k];
    BlankTailNil(tokens, k);
  }

  /** The slots of blank tokens are nil. */
  lemma BlankTailNil(tokens: seq<string>, k: nat)
    requires k <= |tokens| && FirstBad(tokens, 0).None?
    requires forall i :: k <= i < |tokens| ==> Blank(tokens[i])
    ensures forall i :: 0 <= i < |ParseTokens(tokens, 0).value[k..]| ==> ParseTokens(tokens, 0).value[k..][i].None?
  {
    var slots := ParseTokens(tokens, 0).value;
    forall i | 0 <= i < |slots[k..]|
      ensures slots[k..][i].None?
    {
      assert slots[k..][i] == slots[k + i] == TokenSlot(tokens[k + i]);
    }
  }

  /** Two decodings that keep the same networks in the same order and
      store no nil entry are the same list. */
  lemma SameNetworks(c: seq<Slot>, w: seq<Slot>)
    requires NoNil(c) && NoNil(w) && Present(c) == Present(w)
    ensures c == w
  {
    WrapPresent(c);
    WrapPresent(w);
  }

  /** Where the as-written fill is right — blank tokens only at the end —
      the corrected fill agrees with it. */
  lemma CompactedAgrees(wl: BasicNet, tokens: seq<string>, k: nat)
    requires k <= |tokens|
    requires forall i :: 0 <= i < k ==> !Blank(tokens[i]) && ParseCIDR(TrimSpace(tokens[i])).Some?
    requires forall i :: k <= i < |tokens| ==> Blank(tokens[i])
    ensures FillCompacted(wl, tokens) == Fill(wl, tokens)
  {
    TrailingSlots(wl, tokens, k);
    var slots := ParseTokens(tokens, 0).value;
    var w := Fill(wl, tokens).acl.whitelist;
    var c := FillCompacted(wl, tokens).acl.whitelist;
    PresentAllNil(slots[k..]);
    PresentSplit(slots, k);
    assert Present(c) == Present(w) + [];
    SameNetworks(c, w);
  }

  /** The corrected loop on a blank token followed by a network. */
  lemma CompactedBlankThenNetwork(wl: BasicNet, a: string, b: string, n: Network)
    requires Blank(a) && !Bad(a) && !Blank(b) && !Bad(b) && ParseCIDR(TrimSpace(b)) == Some(n)
    ensures FillCompacted(wl, [a, b]) == Decoded(wl.(whitelist := [Some(n)]), None)
  {
    var tokens := [a, b];
    assert ParseCompacted(tokens, 2) == Success([]);
    assert tokens[1] == b && [n] + [] == [n];
    assert ParseCompacted(tokens, 1) == Success([n]);
    assert ParseCompacted(tokens, 0) == Success([n]);
    assert Wrap([n]) == [Some(n)];
  }

  /** The corrected decoder keeps the network after a blank token. */
  lemma CompactedKeepsNetwork(wl: BasicNet, n: Network)
    ensures Readable("\"," + String(n) + "\"")
    ensures UnmarshalJSONCompacted(wl, "\"," + String(n) + "\"") == Decoded(wl.(whitelist := [Some(n)]), None)
  {
    InteriorBlankTokens(n);
    EmptyTokenBlank();
    NetworkToken(n);
    CompactedBlankThenNetwork(wl, "", String(n), n);
  }
}

=== FILE: wrappers.dfy ===
/** An optional value (Go's nil pointer or "not found") and a
    value-or-error result (Go's `(T, error)` pair). */
module Wrappers {

  datatype Option<+T> = None | Some(value: T)

  datatype Result<+R, +E> = Success(value: R) | Failure(error: E)
}
